=== FILE: README.md ===
# Personal knowledge agent — a verified model of the chat-turn pipeline

This project models the core of a small retrieval-augmented chat assistant.
It has a FastAPI backend that answers OpenAI-style `/v1/chat/completions`
requests, and a Streamlit frontend whose `AgentService` client calls it.
One chat turn goes through these steps:

- The client cuts the recent window out of the chat history and posts it.
- The endpoint validates the body (`max_tokens >= 1`, `0 <= temperature <= 1`).
- It builds a `PersonalKnowledgeAgent`. With a RAG source directory, the
  agent loads, chunks and embeds the documents and indexes them in a FAISS
  retriever.
- The agent keeps the messages with a supported role. It puts either
  retrieved or explicit context messages in front of them, never both, and
  calls the chat backend.
- A non-streamed answer comes back in a one-choice envelope.
- A streamed answer becomes numbered `chat.completion.chunk` objects. Each
  is framed as a server-sent event `data: <json>\n\n`, followed by one
  `data: [DONE]\n\n`.
- The client reads the lines back and keeps the payloads up to `[DONE]`, or
  parses the envelope.

One module per source file:

| module | models |
|---|---|
| `Agent` | `backend/src/agent/personal_knowledge.py` |
| `Server` | `backend/main.py` |
| `Client` | `frontend/src/services/agent.py` |
| `Loader` | `backend/src/rag/loader.py` |
| `Embedder` | `backend/src/rag/embedder.py` |
| `Retrieval` | `backend/src/rag/retriever.py` |
| `Memory` | `backend/src/agent/memory.py` |
| `Prompts` | `backend/src/utils/prompt_loader.py` |

Shared modules:

- `Base`: Option/Result and the Python string operations used, such as
  `str.strip`, `str.lower`, `str.isspace` and `str.join`.
- `Records`: messages, documents and metadata.
- `Json`: `json.dumps` of strings and objects, with its `ensure_ascii`
  escaping and `", "` / `": "` separators.
- `StreamRoundTrip`: puts the endpoint and the client together. It proves
  that what the endpoint streams is exactly what the client reads back.

External services are parameters, given as total functions that return a
value or an error:

- the chat backend (OpenAI);
- the embedding backend;
- the FAISS build and similarity search;
- the LangChain text splitter;
- the HTTP `post` of the client;
- file reads and JSON decoding in the prompt loader.

A directory walk is an input list of entries. Each entry says what reading,
PDF-parsing and stat-ing it would give, or that the call raises. The FAISS
files on disk are a map in an `IndexDisk` object that the retriever updates.

Where the state is updated in place, the model has classes with `modifies`
clauses:

- `Retriever.vectorstore`;
- `AgentMemory.chatHistory`;
- the disk map.

The source loops become methods proved against specification functions:

- `_convert_messages` becomes `ConvertMessages`.
- `retrieve_context` becomes `RetrieveContext`.
- The streaming `generator` becomes `Generate`.
- `load_documents_from_dir` becomes `LoadDocumentsFromDir`.
- `chunk_documents` becomes `ChunkDocuments`.
- `stream_generator` becomes `ParseStream`.

Exceptions become `Result`/`Option` values, on the branches where the source
raises or catches them.

Two behaviours of the code are modelled as written:

- The comments in `Retriever.__init__` are swapped relative to the calls.
  With precomputed embeddings, the store is built by `from_documents` and
  the vectors are ignored. Without them, `from_embeddings` gets
  `embeddings=None`. See `Retrieval.BuildRequestFor`.
- The apology `str` returned by `run` on a streamed request is not
  async-iterable. The event stream then breaks before its first frame:
  `Server.SseStream` gives an aborted body with no frames.

## Model

| member | source | states |
|---|---|---|
| Base.Lower | backend/src/rag/loader.py:81 | `str.lower` on ASCII: it keeps the length, maps `A`–`Z` to `a`–`z` and keeps every other code point (non-ASCII case mapping is not modelled, see below) |
| Base.StripLeft | frontend/src/services/agent.py:121 | the result is a suffix of the input, starts with a non-space, and only whitespace was removed |
| Base.StripRight | frontend/src/services/agent.py:121 | the result is a prefix of the input, ends with a non-space, and only whitespace was removed |
| Base.StripEmptyIffBlank | backend/src/rag/loader.py:89 | `not content.strip()` holds exactly when the content is whitespace only (both directions) |
| Base.StripUntrimmed | frontend/src/services/agent.py:121 | stripping a string with no whitespace at either end returns it unchanged |
| Json.EscapeChar | backend/main.py:106 | every escape is printable ASCII; a printable character other than `"` and `\` is kept as itself |
| Json.Escape | backend/main.py:106 | `ensure_ascii` output is printable ASCII and never shorter than the input |
| Json.EscapePlain | backend/main.py:106 | a string of plain printable characters is its own escape |
| Json.Quote | backend/main.py:106 | a dumped string is printable and enclosed in double quotes |
| Json.DumpsObject | backend/main.py:106 | a dumped object is printable ASCII and runs from `{` to `}` |
| Records.AsRaw | backend/main.py:148 | `m.dict()` carries exactly the message's role and content |
| Agent.Normalized | backend/src/agent/personal_knowledge.py:88-93 | a message is kept iff its role is user, assistant or system; a kept message keeps its role, and its content defaults to `""` |
| Agent.Converted | backend/src/agent/personal_knowledge.py:86-94 | the conversion never grows the list, and every kept role is supported |
| Agent.ConvertedAppend | backend/src/agent/personal_knowledge.py:86-94 | the conversion distributes over concatenation, so kept messages stay in their original order |
| Agent.AsRawAll | backend/main.py:148 | the dictionaries of the messages, one per message, position by position |
| Agent.ConvertedKeepsSupported | backend/src/agent/personal_knowledge.py:86-94 | messages whose roles are all supported come back unchanged |
| Agent.ConvertIdempotent | backend/src/agent/personal_knowledge.py:86-94 | converting a converted list again changes nothing |
| Agent.DropsUnsupported | backend/src/agent/personal_knowledge.py:90-93 | a message with an unsupported or missing role is dropped wherever it stands |
| Agent.Truncated | backend/src/agent/personal_knowledge.py:108 | `[:1500]` is a prefix of at most 1500 characters; it is the whole text when that is short enough and exactly 1500 characters otherwise |
| Agent.ContextMessage | backend/src/agent/personal_knowledge.py:106-109 | a system message whose content is `"[CONTEXT] "` followed by the truncated page content |
| Agent.ContextMessages | backend/src/agent/personal_knowledge.py:103-110 | one context message per retrieved document |
| Agent.ContextMessagesAt | backend/src/agent/personal_knowledge.py:103-110 | the i-th context message is built from the i-th retrieved document (retrieval order) |
| Agent.ContextMessagesBounded | backend/src/agent/personal_knowledge.py:106-109 | every context message is a system message with the prefix, at most 1510 characters long |
| Agent.LastUserQuery | backend/src/agent/personal_knowledge.py:134 | none iff no message has the user role; otherwise the content of a user message after which no user message follows |
| Agent.Fused | backend/src/agent/personal_knowledge.py:133-140 | the converted messages always end the prompt unchanged; with `include_context`, what precedes them is the retrieved context exactly when a user message exists and RAG is on; without it, the explicit list (nothing when absent or empty) |
| Agent.ContextSourcesExclusive | backend/src/agent/personal_knowledge.py:133-140 | with `include_context` the explicit messages do not matter; without it the retrieved ones do not |
| Agent.Contents | backend/src/agent/personal_knowledge.py:154-157 | the contents passed on are non-empty and no more than the deltas |
| Agent.ContentChunks | backend/src/agent/personal_knowledge.py:158-169 | one content chunk per content, numbered 0, 1, 2, … in order |
| Agent.StreamChunksWellFormed | backend/src/agent/personal_knowledge.py:152-181 | a completed stream is numbered content chunks followed by exactly one stop chunk, with an empty delta and `finish_reason` "stop", whose index is the number of content chunks |
| Agent.ContentsText | backend/src/agent/personal_knowledge.py:154-157 | the contents kept spell out the deltas' text, with a missing content read as "" |
| Agent.ContentChunksText | backend/src/agent/personal_knowledge.py:158-169 | the content chunks carry exactly the contents' text |
| Agent.StreamKeepsText | backend/src/agent/personal_knowledge.py:152-181 | the chunks carry the backend's text, with nothing lost, added or reordered |
| Agent.Generate | backend/src/agent/personal_knowledge.py:152-181 | the generator loop yields the stream's chunks and raises exactly when the backend stream raises |
| Agent.Answer | backend/src/agent/personal_knowledge.py:142-195 | non-streaming: the backend's content unchanged (possibly `None`), or the apology when the call raises. Streaming: the apology when the call raises. Otherwise a chunk stream that keeps the text, is well formed when it completes, and raises exactly when the backend stream does |
| Agent.StreamModeReplyOnlyOnFailure | backend/src/agent/personal_knowledge.py:142-195 | in streaming mode, `run` returns a string iff the backend call raised, and that string is the apology |
| Agent.PersonalKnowledgeAgent.Assemble | backend/src/agent/personal_knowledge.py:53-69 | the fields are set from the arguments, and RAG is enabled iff a source directory is given |
| Agent.PersonalKnowledgeAgent.Create | backend/src/agent/personal_knowledge.py:36-74 | no source gives no retriever. A missing directory or an empty corpus raises the loader's error. With a directory, construction succeeds iff documents are kept, the default embedder's `embed_documents` call succeeds and the FAISS build succeeds. An embedding failure raises its message and a build failure raises the build error. On success the retriever is a default-embeddings FAISS store built from the chunked kept documents, with no index path, and the disk is untouched |
| Agent.PersonalKnowledgeAgent.ContextFor | backend/src/agent/personal_knowledge.py:96-110 | `[]` when RAG is off or there is no retriever; otherwise the context messages of the retriever's answer |
| Agent.PersonalKnowledgeAgent.RetrieveContext | backend/src/agent/personal_knowledge.py:96-110 | the append loop builds exactly `ContextFor` |
| Agent.PersonalKnowledgeAgent.ConvertMessages | backend/src/agent/personal_knowledge.py:76-94 | the append loop builds exactly the converted list |
| Agent.PersonalKnowledgeAgent.CallFor | backend/src/agent/personal_knowledge.py:131-150 | the backend is called with the agent's model, max tokens, temperature and stream flag, on the fused prompt with top-3 retrieval |
| Agent.PersonalKnowledgeAgent.Prompt | backend/src/agent/personal_knowledge.py:131-140 | the statement sequence of `run` builds exactly the fused prompt |
| Agent.PersonalKnowledgeAgent.Run | backend/src/agent/personal_knowledge.py:112-195 | `run` gives the backend's answer for the agent's call, as `Answer` describes it |
| Server.ValidateRequest | backend/main.py:62-80 | accepted iff model and messages are present, every message has both fields, `max_tokens >= 1` and `0 <= temperature <= 1` after defaults (512, 0.1, false, false); an accepted body keeps every field |
| Server.BoundsEnforced | backend/main.py:77-78 | `max_tokens` 0 and temperatures 1.5 and -0.1 are rejected |
| Server.FrameNotDone | backend/main.py:106-108 | the frame of a JSON object is never the `[DONE]` frame |
| Server.DumpsChunk | backend/main.py:106 | a dumped chunk is printable ASCII (so it has no line break) and runs from `{` to `}` |
| Server.SseStream | backend/main.py:100-108 | one frame per chunk, in order, then a single `[DONE]` exactly when the generator completes. A raising generator cuts the stream after the frames already sent. A `str` from `run` aborts the stream before its first frame. `[DONE]` appears only as the last frame |
| Server.ChunkFramesNotDone | backend/main.py:105-108 | no chunk frame is the terminator |
| Server.ChunkFrames | backend/main.py:105-106 | the i-th frame is `"data: " + dumps(chunk i) + "\n\n"`, and none is the terminator |
| Server.RequestId | backend/main.py:144 | `hex[:6]`: a prefix of at most six characters, exactly six when the hex has them |
| Server.CompletionJson | backend/main.py:161-177 | the envelope has exactly the keys id, object, created, model, choices and usage. Its id is `chatcmpl-` + the request id and usage is null. It has one choice: index 0, role assistant, the output verbatim (`null` when `run` gave `None`), `finish_reason` "stop" |
| Server.GetAgent | backend/main.py:85-98 | the agent takes model, temperature, max tokens and stream from the request, with RAG over `data/`; a missing `data/` raises |
| Server.Respond | backend/main.py:150-181 | a streamed request gets the event stream. A non-streamed one gets the envelope around the text, or a 500 "Chat completion failed." when `run` returned a generator |
| Server.Handle | backend/main.py:122-181 | empty messages give a 400 before the agent runs; otherwise the response for the agent's run on the request's message dictionaries |
| Server.ChatCompletions | backend/main.py:122-181 | the disk is untouched. A 422 is given iff validation fails. The handler's own 500 never happens. A 400 means the messages were empty. A missing `data/` gives a 500. An event stream is given only to streamed requests and JSON only to non-streamed ones |
| Client.NewAgentService | frontend/src/services/agent.py:44-58 | construction fails iff the URL is empty, with the ValueError message; otherwise URL and timeout are kept |
| Client.SliceStart | frontend/src/services/agent.py:92 | Python's clamped slice start for non-negative and negative starts |
| Client.Window | frontend/src/services/agent.py:92 | `history[-n_last:]` is a suffix of the history: the last `n_last` entries, the whole history for `n_last` 0, and fewer for a negative `n_last` |
| Client.KeepSendable | frontend/src/services/agent.py:90-94 | every message kept has a non-empty role and content |
| Client.KeepSendableStep | frontend/src/services/agent.py:90-94 | one more history entry adds its `{role, content}` at the end exactly when both are truthy, and nothing otherwise |
| Client.KeepsEverySendable | frontend/src/services/agent.py:90-94 | every entry with truthy role and content is sent, reduced to its own role and content |
| Client.KeepSendableFrom | frontend/src/services/agent.py:90-94 | every message sent is the reduced form of an entry with truthy role and content |
| Client.KeepSendableAppend | frontend/src/services/agent.py:90-94 | the filter distributes over concatenation, so the kept messages stay in order |
| Client.RecentMessages | frontend/src/services/agent.py:90-94 | at most `n_last` messages for a positive `n_last`; every sendable message for 0; all with non-empty role and content |
| Client.WindowIsSuffix | frontend/src/services/agent.py:90-94 | the recent messages are a suffix of all the sendable messages |
| Client.RecentKeepsSendable | frontend/src/services/agent.py:90-94 | for a positive `n_last`, every sendable entry among the last `n_last` is sent |
| Client.PayloadFor | frontend/src/services/agent.py:96-103 | the payload carries the recent messages and every argument unchanged |
| Client.LineEnd | frontend/src/services/agent.py:117 | the first line ends at the first line break, or at the end of the text |
| Client.SplitLinesHaveNoBreaks | frontend/src/services/agent.py:117 | no line from `splitlines` contains a line break |
| Client.LinePayload | frontend/src/services/agent.py:120-121 | a payload exists iff the line starts with `data: `, and it is the stripped rest of the line |
| Client.LineStep | frontend/src/services/agent.py:118-125 | a payload that is yielded is neither empty nor `[DONE]` |
| Client.StreamPayloadsClean | frontend/src/services/agent.py:118-125 | the stream never yields an empty payload or `[DONE]` |
| Client.YieldedStopsAtStop | frontend/src/services/agent.py:122-123 | nothing after the first stop is yielded |
| Client.PayloadsStopAtDone | frontend/src/services/agent.py:122-123 | lines after the first `[DONE]` line do not change what is yielded |
| Client.ParseStream | frontend/src/services/agent.py:116-125 | the line loop with `continue`/`break` yields exactly the stream's payloads |
| Client.ParseResponse | frontend/src/services/agent.py:146-169 | a `response` key wins outright. A response without a `choices` list gets the fallback text. Errors arise only from a `choices` list, and an empty one raises the IndexError. Any other result is truthy content or the fallback |
| Client.ParsesOpenAIShape | frontend/src/services/agent.py:161-166 | an OpenAI-shaped reply gives its message content when that is truthy, and the fallback text otherwise (empty text, `null`) |
| Client.ParseBody | frontend/src/services/agent.py:137-169 | a dictionary is parsed as above. A list or string body raises iff it contains `"response"` or `"choices"` (elements or substrings), with Python's TypeError message, and gives the fallback otherwise. Any other JSON value raises "argument of type … is not iterable" |
| Client.StatusError | frontend/src/services/agent.py:114 | `raise_for_status` raises iff the status is 4xx or 5xx, with a message that starts with the status code |
| Client.ErrorReply | frontend/src/services/agent.py:139-144 | the error dictionary: the prefix plus the message, and empty reasoning |
| Client.SendChatHistory | frontend/src/services/agent.py:60-144 | the recent-window payload is posted. A request failure, an error status or a body that is not JSON gives a "Request error" reply. A stream gives the parsed payloads of the body's lines. Otherwise the parsed body (any JSON value), or an "Unexpected error" reply when parsing raises. Replies carry empty reasoning |
| Loader.Suffix | backend/src/rag/loader.py:81 | `Path.suffix`: empty, or a dot-led ending of the name with no other dot, shorter than the name |
| Loader.AllowedExtensions | backend/src/rag/loader.py:77 | `[".txt", ".md", ".pdf"]` when the argument is absent or empty, otherwise the argument |
| Loader.PageTexts | backend/src/rag/loader.py:52 | one text per page, a page without text read as "" |
| Loader.PdfPagesRecoverable | backend/src/rag/loader.py:52 | when no page text has a newline, splitting the PDF text at newlines gives back the pages' texts |
| Loader.ReadContent | backend/src/rag/loader.py:84-88 | a `.pdf` suffix is read as a PDF and anything else as text; the read succeeds iff that reader does |
| Loader.MetadataOf | backend/src/rag/loader.py:94-101 | the metadata: resolved path, file name, lower-cased suffix and size |
| Loader.LoadEntry | backend/src/rag/loader.py:80-104 | an entry is kept iff its lower-cased suffix is allowed, its read succeeds, its content is not whitespace only and stat succeeds; a kept entry has that content and that metadata |
| Loader.KeptDocumentsAppend | backend/src/rag/loader.py:80-104 | scanning two parts of the walk keeps the first part's documents, then the second's |
| Loader.KeptDocumentsAreValid | backend/src/rag/loader.py:81-101 | every kept document has an allowed extension and non-blank content |
| Loader.LoadDocumentsFromDir | backend/src/rag/loader.py:59-110 | a missing directory raises. Otherwise the kept documents in walk order, or the "no valid documents" error when none is kept |
| Loader.ChunkedAppend | backend/src/rag/loader.py:132-136 | chunking distributes over concatenation of document lists |
| Loader.ChunkDocuments | backend/src/rag/loader.py:112-137 | the extend loop gives the splitter's chunks of each document, in document order |
| Loader.LoadAndChunkDocuments | backend/src/rag/loader.py:139-156 | loading errors propagate; otherwise the chunks of the kept documents |
| Loader.LoadSingleDocument | backend/src/rag/loader.py:158-178 | `.pdf` is read as a PDF, `.txt`/`.md` as text, and any other suffix raises. It succeeds iff the suffix is supported, the reader succeeds and `stat` succeeds. A reader failure raises the reader's error and a `stat` failure raises too |
| Loader.SingleDocumentKeepsBlank | backend/src/rag/loader.py:158-178 | a whitespace-only text file loads on its own but is skipped by the directory scan |
| Embedder.NewDocumentEmbedder | backend/src/rag/embedder.py:26-46 | no model selects the default embeddings, otherwise the given one; the batch size is kept |
| Embedder.PageContents | backend/src/rag/embedder.py:62 | the documents' page contents, in order |
| Embedder.EmbedCallFor | backend/src/rag/embedder.py:58-70 | no call for no documents. Otherwise the embedder's model is called on the page contents in order, with a batch size exactly when it is truthy |
| Embedder.EmbedDocuments | backend/src/rag/embedder.py:48-79 | `[]` for no documents; otherwise the model's result or exception, unchanged |
| Embedder.EmbedEmptyCallsNothing | backend/src/rag/embedder.py:58-60 | for no documents the result does not depend on the model |
| Embedder.EmbedDependsOnlyOnTheCall | backend/src/rag/embedder.py:64-79 | two models that answer the same call give the same result |
| Embedder.EmbedMismatchPassesThrough | backend/src/rag/embedder.py:71-76 | a count mismatch is returned unchanged, not an error |
| Embedder.Zip | backend/src/rag/embedder.py:89 | `zip` pairs position by position, as long as the shorter list |
| Embedder.EmbedWithMetadata | backend/src/rag/embedder.py:81-89 | fails iff embedding fails; otherwise documents paired with their vectors, as long as the shorter |
| Embedder.EmbedDocumentsWith | backend/src/rag/embedder.py:92-99 | the module function is a fresh embedder's `embed_documents` |
| Retrieval.FaissPathOf | backend/src/rag/retriever.py:48 | an empty or absent path counts as no path |
| Retrieval.LoadLocal | backend/src/rag/retriever.py:52 | loading succeeds iff a saved index is at the path, and gives that index; otherwise the load error |
| Retrieval.LoadAfterSave | backend/src/rag/retriever.py:110-127 | loading what was just saved gives it back |
| Retrieval.Metadatas | backend/src/rag/retriever.py:73 | the documents' metadata, in order |
| Retrieval.BuildRequestFor | backend/src/rag/retriever.py:61-76 | with vectors, `from_documents` on the documents and the model; without them, `from_embeddings` on the texts, model, metadata and no vectors |
| Retrieval.OpenStore | backend/src/rag/retriever.py:46-86 | an existing path is loaded and a load failure raises. "Neither source" happens iff there are no documents and no existing path. Otherwise, with documents, the store is the build's result: a build failure raises as `BuildFailed`, and a built store is saved exactly when a path was given |
| Retrieval.ExistingIndexWins | backend/src/rag/retriever.py:50-56 | with an existing index, the documents and vectors do not matter |
| Retrieval.Retriever.FromStore | backend/src/rag/retriever.py:46-48 | the fields are set and the store is present |
| Retrieval.Retriever.Open | backend/src/rag/retriever.py:28-86 | the constructor succeeds iff the branch logic does, with the same error. It holds that store, model and path. The disk changes only by the save, which happens iff no index existed at the path, the documents were built successfully, and a path was given |
| Retrieval.Retriever.Query | backend/src/rag/retriever.py:88-108 | `[]` without a store; otherwise the search result unchanged, or `[]` when the search raises |
| Retrieval.Retriever.SaveIndex | backend/src/rag/retriever.py:110-119 | no store leaves the disk alone; otherwise the store is written at the path |
| Retrieval.Retriever.LoadIndex | backend/src/rag/retriever.py:121-127 | succeeds iff an index is at the path, and replaces the store with it; on failure the store is unchanged |
| Retrieval.SaveThenLoad | backend/src/rag/retriever.py:110-127 | saving then loading at one path keeps the store and records it on disk |
| Memory.AssistantMessage | backend/src/agent/memory.py:33 | the appended entry has role assistant and the response as content |
| Memory.AgentMemory.constructor | backend/src/agent/memory.py:12-13 | a new memory has an empty history |
| Memory.AgentMemory.Update | backend/src/agent/memory.py:15-23 | the history becomes the given messages |
| Memory.AgentMemory.UpdateAgentResponse | backend/src/agent/memory.py:25-33 | exactly one assistant entry is appended, and the earlier entries are unchanged |
| Memory.AgentMemory.Retrieve | backend/src/agent/memory.py:35-43 | returns the history and changes nothing |
| Memory.RecordTurn | backend/src/agent/memory.py:15-43 | update, record and retrieve give the messages followed by the reply |
| Prompts.DefaultPromptLoader | backend/src/utils/prompt_loader.py:18-23 | the default base path is `prompts` |
| Prompts.PathJoin | backend/src/utils/prompt_loader.py:41 | POSIX `os.path.join`: an absolute second part wins; otherwise the parts are joined with one separator unless the first is empty or already ends in one |
| Prompts.ExtensionFor | backend/src/utils/prompt_loader.py:40 | `.json` for JSON prompts, `.txt` otherwise |
| Prompts.PromptPath | backend/src/utils/prompt_loader.py:40-41 | the path ends with name plus extension and, for a relative name, starts with the base path |
| Prompts.LoadPrompt | backend/src/utils/prompt_loader.py:25-43 | a read error propagates. A good read gives the file's text as a text prompt, or, for JSON, the decoding of that text, with a decode error propagating |
| Prompts.TxtRoot | backend/src/utils/prompt_loader.py:55 | `splitext` drops exactly the final `.txt`, unless the rest is all dots |
| Prompts.ListedName | backend/src/utils/prompt_loader.py:55-57 | a name is listed iff it ends in `.txt` |
| Prompts.ListPrompts | backend/src/utils/prompt_loader.py:45-58 | `[]` when the base path is not a directory; otherwise no more names than entries |
| Prompts.PromptNamesAppend | backend/src/utils/prompt_loader.py:54-58 | the listing distributes over concatenation, so names stay in listing order |
| Prompts.ListedNameLoadsBack | backend/src/utils/prompt_loader.py:40-58 | a listed `.txt` file name, hidden files such as `.notes.txt` included, loads back from the file it was listed from, unless only dots precede `.txt` |
| Prompts.ListedPromptsLoadBack | backend/src/utils/prompt_loader.py:40-58 | every listed prompt loads back from some entry of the listing |
| Prompts.HiddenTxtListed | backend/src/utils/prompt_loader.py:55-57 | `.txt` is listed as itself, because `splitext` keeps a leading-dot name whole |
| Prompts.DottedTxtListed | backend/src/utils/prompt_loader.py:55-57 | `a.b.txt` is listed as `a.b`: only the last extension goes |
| Prompts.MarkdownNotListed | backend/src/utils/prompt_loader.py:57 | `notes.md` is not listed |
| Prompts.HiddenTxtListsWhole | backend/src/utils/prompt_loader.py:54-58 | the listing `.txt`, `a.b.txt`, `notes.md` gives `.txt`, `a.b` |
| StreamRoundTrip.SplitOffLine | frontend/src/services/agent.py:117 | a break-free line followed by `\n` is split off as the first line |
| StreamRoundTrip.SplitOffFrame | backend/main.py:106 | a frame splits into its `data:` line and one empty line |
| StreamRoundTrip.ChunkIsClean | backend/main.py:106 | every dumped chunk is non-empty, not `[DONE]`, break-free and unpadded |
| StreamRoundTrip.DataLineStep | frontend/src/services/agent.py:120-125 | a `data:` line of an unpadded payload stops on `[DONE]` and yields the payload otherwise |
| StreamRoundTrip.FrameStep | frontend/src/services/agent.py:116-125 | reading a frame then more text yields its payload, then what the rest yields; `[DONE]` yields nothing more |
| StreamRoundTrip.DoneFrameStops | backend/main.py:108 | nothing after the terminator frame is read |
| StreamRoundTrip.FramesSplit | backend/main.py:105-106 | the concatenated frames split into each payload's `data:` line and an empty line, then the rest's lines |
| StreamRoundTrip.FrameLinesYield | frontend/src/services/agent.py:116-125 | the lines of clean frames yield their payloads, then what follows |
| StreamRoundTrip.FramesYield | frontend/src/services/agent.py:116-125 | reading concatenated clean frames yields their payloads, then what follows |
| StreamRoundTrip.Serialised | backend/main.py:106 | the dumped chunks, in order |
| StreamRoundTrip.ChunkFramesClean | backend/main.py:105-106 | each chunk frame frames its dumped chunk, which is clean |
| StreamRoundTrip.FramesThenDone | backend/main.py:105-108 | clean frames plus `[DONE]` yield exactly the payloads, whatever trails |
| StreamRoundTrip.FramesCut | backend/main.py:104-106 | a stream cut after its frames yields exactly their payloads |
| StreamRoundTrip.StreamReachesClient | backend/main.py:100-108 | the client reads back exactly the streamed chunks' JSON, in order, completed or cut off |
| StreamRoundTrip.StreamedExchange | frontend/src/services/agent.py:106-127 | a streamed request answered with the full event stream gives the caller exactly the serialised chunks |
| StreamRoundTrip.EnvelopeReachesClient | backend/main.py:161-177 | the client parses the reply text out of the envelope, or the fallback for an empty or `null` reply |
| StreamRoundTrip.RequestOf | frontend/src/services/agent.py:96-103 | the decoded body of a client payload has every field present and unchanged |
| StreamRoundTrip.ClientPayloadAccepted | backend/main.py:62-80 | a client payload is accepted iff `max_tokens >= 1` and `0 <= temperature <= 1`, and it reaches the handler unchanged |

## Left out

- Network I/O is left out. The OpenAI chat and embedding clients and the `requests` post are parameters, and `list_models` is not part of this model.
- FAISS, the LangChain text splitter, PyPDF2 and `OpenAIEmbeddings` are opaque functions. Similarity ranking and vector arithmetic are not modelled, and vectors are opaque reals.
- The filesystem is an input. The `rglob` walk is a list of entries; stat, open and `listdir` are the outcomes recorded in them; `load_prompt` reads through a `readFile` parameter.
- Base.Lower: only the ASCII letters are lowered. Python's `str.lower` also lowers other capitals (`Ä` to `ä`), and can change the length (`İ` gives two code points). So a file `x.Ä` with a caller-supplied extension `.ä` is dropped by `Loader.LoadEntry` but kept by the source. The metadata extension and the "Unsupported file type" message keep such capitals. With the default extensions, the filter keeps the same files.
- The UTF-8 byte-order mark that `utf-8-sig` removes is not modelled. Text is given as code points.
- The walk's directories are not modelled as entries. Their `suffix` is usually empty, so they fail the extension filter.
- `async`/`await`, FastAPI routing, CORS, `StreamingResponse` and `asyncio.sleep` are left out. Streams are finite sequences, and an error while the response body is sent is an `aborted` flag.
- `uuid4()` and `time()` are parameters: a hex string for the request id, and a per-chunk stamp.
- The settings modules, logging, the Streamlit UI and the placeholder graph, tools and LLM-interface modules are not part of this model.
- Client.SendChatHistory: the stream generator runs over `splitlines` of the whole body text. An error raised while `iter_lines` reads the body is not modelled: it happens outside the `try`, when the caller iterates.
- Records.AsRaw: message content is an optional string. A dictionary whose content is present but not a string is not modelled.
- Retrieval.Retriever.Open: a failing `save_local` after a build is not modelled. The disk map update always succeeds.
- Retrieval.Retriever.SaveIndex: a failing `save_local` is not modelled.
- Server.ChatCompletions: an exception in `get_agent` becomes the framework's generic 500 ("Internal Server Error"). The model states this for a missing `data/` only. The agent's other construction errors are results of `PersonalKnowledgeAgent.Create`.
- Client.StatusError: the message follows `requests` (status, "Client Error"/"Server Error", reason, URL). A non-integer status is not modelled.

=== FILE: agent.dfy ===
/** The chat-turn orchestrator (backend/src/agent/personal_knowledge.py):
    message normalisation, retrieval of context messages, context fusion, the
    call to the chat-completion backend and the streaming chunk generator.

    The OpenAI client is a parameter (`ChatBackend`): for one call it either
    answers or raises. The chunk ids (`uuid4().hex`) and timestamps
    (`int(time())`) are a parameter too, indexed by the chunk's position. */
module Agent {
  import opened Base
  import opened Records
  import opened Loader
  import opened Embedder
  import opened Retrieval

  const ContextPrefix := "[CONTEXT] "
  /** At most this many characters of a retrieved document go into the prompt. */
  const ContextCap := 1500
  const Apology := "❌ LLM response generation failed."
  const DefaultTopK := 3

  // ---------------------------------------------------------------------------
  // _convert_messages
  // ---------------------------------------------------------------------------

  predicate IsSupportedRole(role: Option<string>) {
    role.Some? && role.value in ["user", "assistant", "system"]
  }

  /** The message `_convert_messages` keeps for `m`, if any: role and content
      only, a missing content read as "". */
  function Normalized(m: RawMessage): (c: Option<ChatMessage>)
    ensures c.Some? <==> IsSupportedRole(m.role)
    ensures c.Some? ==> c.value.role == m.role.value && c.value.content == m.content.GetOr("")
  {
    if IsSupportedRole(m.role) then Some(ChatMessage(m.role.value, m.content.GetOr(""))) else None
  }

  /** The converted list: the supported messages, in order. */
  function Converted(messages: seq<RawMessage>): (r: seq<ChatMessage>)
    ensures |r| <= |messages|
    ensures forall i :: 0 <= i < |r| ==> r[i].role in ["user", "assistant", "system"]
    decreases |messages|
  {
    if messages == [] then []
    else
      var last := Normalized(messages[|messages| - 1]);
      Converted(messages[..|messages| - 1]) + (if last.Some? then [last.value] else [])
  }

  lemma {:induction false} ConvertedAppend(a: seq<RawMessage>, b: seq<RawMessage>)
    ensures Converted(a + b) == Converted(a) + Converted(b)
    decreases |b|
  {
    if b == [] {
      assert a + b == a;
    } else {
      assert (a + b)[..|a + b| - 1] == a + b[..|b| - 1];
      ConvertedAppend(a, b[..|b| - 1]);
    }
  }

  function AsRawAll(messages: seq<ChatMessage>): (r: seq<RawMessage>)
    ensures |r| == |messages|
    ensures forall i :: 0 <= i < |messages| ==> r[i] == AsRaw(messages[i])
  {
    seq(|messages|, i requires 0 <= i < |messages| => AsRaw(messages[i]))
  }

  /** Messages whose roles are all supported pass through unchanged, so
      converting twice is converting once. */
  lemma {:induction false} ConvertedKeepsSupported(messages: seq<ChatMessage>)
    requires forall i :: 0 <= i < |messages| ==> messages[i].role in ["user", "assistant", "system"]
    ensures Converted(AsRawAll(messages)) == messages
    decreases |messages|
  {
    if messages != [] {
      var n := |messages| - 1;
      assert AsRawAll(messages)[..n] == AsRawAll(messages[..n]);
      ConvertedKeepsSupported(messages[..n]);
      assert messages[..n] + [messages[n]] == messages;
    }
  }

  lemma ConvertIdempotent(messages: seq<RawMessage>)
    ensures Converted(AsRawAll(Converted(messages))) == Converted(messages)
  {
    ConvertedKeepsSupported(Converted(messages));
  }

  /** A message with an unsupported or missing role is dropped wherever it
      stands. */
  lemma DropsUnsupported(a: seq<RawMessage>, m: RawMessage, b: seq<RawMessage>)
    requires !IsSupportedRole(m.role)
    ensures Converted(a + [m] + b) == Converted(a + b)
  {
    ConvertedAppend(a + [m], b);
    ConvertedAppend(a, [m]);
    ConvertedAppend(a, b);
    assert [m][..0] == [];
  }

  // ---------------------------------------------------------------------------
  // Context messages
  // ---------------------------------------------------------------------------

  /** `doc.page_content[:1500]` */
  function Truncated(s: string): (r: string)
    ensures |r| <= ContextCap
    ensures |s| <= ContextCap ==> r == s
    ensures r == s[..|r|]
    ensures |s| > ContextCap ==> |r| == ContextCap
  {
    if |s| <= ContextCap then s else s[..ContextCap]
  }

  function ContextMessage(d: Document): (m: ChatMessage)
    ensures m.role == "system"
    ensures StartsWith(m.content, ContextPrefix)
    ensures m.content[|ContextPrefix|..] == Truncated(d.pageContent)
  {
    ChatMessage("system", ContextPrefix + Truncated(d.pageContent))
  }

  /** One system message per retrieved document, in retrieval order. */
  function ContextMessages(documents: seq<Document>): (r: seq<ChatMessage>)
    ensures |r| == |documents|
  {
    Map(ContextMessage, documents)
  }

  lemma ContextMessagesAt(documents: seq<Document>, i: nat)
    requires i < |documents|
    ensures ContextMessages(documents)[i] == ContextMessage(documents[i])
  {
    MapAt(ContextMessage, documents, i);
  }

  lemma ContextMessagesStep(documents: seq<Document>, i: nat)
    requires i < |documents|
    ensures ContextMessages(documents[..i + 1]) == ContextMessages(documents[..i]) + [ContextMessage(documents[i])]
  {
    MapStep(ContextMessage, documents, i);
  }

  /** Each context message is a system message holding the prefix and the
      document's text cut at the cap. */
  lemma ContextMessagesBounded(documents: seq<Document>)
    ensures forall m :: m in ContextMessages(documents) ==>
      m.role == "system" && StartsWith(m.content, ContextPrefix) && |m.content| <= |ContextPrefix| + ContextCap
  {
    var r := ContextMessages(documents);
    forall m | m in r
      ensures m.role == "system" && StartsWith(m.content, ContextPrefix) && |m.content| <= |ContextPrefix| + ContextCap
    {
      var i :| 0 <= i < |r| && r[i] == m;
      ContextMessagesAt(documents, i);
    }
  }

  // ---------------------------------------------------------------------------
  // Context fusion
  // ---------------------------------------------------------------------------

  /** The content of the last user message, searching from the end. */
  function LastUserQuery(chat: seq<ChatMessage>): (q: Option<string>)
    ensures q.None? <==> forall i :: 0 <= i < |chat| ==> chat[i].role != "user"
    ensures q.Some? ==>
      exists i :: (0 <= i < |chat| && chat[i].role == "user" && chat[i].content == q.value
                   && forall j :: i < j < |chat| ==> chat[j].role != "user")
    decreases |chat|
  {
    if chat == [] then None
    else if chat[|chat| - 1].role == "user" then Some(chat[|chat| - 1].content)
    else LastUserQuery(chat[..|chat| - 1])
  }

  /** The prompt sent to the backend: the converted messages, after the
      retrieved context (`include_context`, a user message and RAG enabled;
      `retrieved` is what retrieval returns for that user message's content)
      or after the explicit context messages (no `include_context`), never
      both. An empty or absent explicit list adds nothing. */
  function Fused(
    chat: seq<ChatMessage>, includeContext: bool, ragEnabled: bool,
    retrieved: seq<ChatMessage>, explicit: Option<seq<ChatMessage>>)
    : (r: seq<ChatMessage>)
    ensures |chat| <= |r| && r[|r| - |chat|..] == chat
    ensures includeContext ==>
      r[..|r| - |chat|] == (if LastUserQuery(chat).Some? && ragEnabled then retrieved else [])
    ensures !includeContext ==> r[..|r| - |chat|] == explicit.GetOr([])
  {
    if includeContext then
      if LastUserQuery(chat).Some? && ragEnabled then retrieved + chat else chat
    else if explicit.Some? && explicit.value != [] then explicit.value + chat
    else chat
  }

  /** With `include_context` the explicit messages are never consulted, and
      without it nothing retrieved is. */
  lemma ContextSourcesExclusive(
    chat: seq<ChatMessage>, ragEnabled: bool,
    r1: seq<ChatMessage>, r2: seq<ChatMessage>, e1: Option<seq<ChatMessage>>, e2: Option<seq<ChatMessage>>)
    ensures Fused(chat, true, ragEnabled, r1, e1) == Fused(chat, true, ragEnabled, r1, e2)
    ensures Fused(chat, false, ragEnabled, r1, e1) == Fused(chat, false, ragEnabled, r2, e1)
  {
  }

  // ---------------------------------------------------------------------------
  // Streaming chunks
  // ---------------------------------------------------------------------------

  /** A chunk id's hex part and its creation time. */
  datatype Stamp = Stamp(hex: string, time: int)

  /** One `chat.completion.chunk` dictionary: `content` is `None` for the
      empty delta `{}`. */
  datatype ChatChunk = ChatChunk(
    id: string, created: int, model: string,
    content: Option<string>, index: nat, finishReason: Option<string>)

  /** What the backend's streaming response yields: each chunk's delta
      content, and whether iterating it raises after the last of them. */
  datatype DeltaStream = DeltaStream(deltas: seq<Option<string>>, raises: bool)

  function ContentChunk(model: string, stamp: Stamp, text: string, index: nat): ChatChunk {
    ChatChunk("chatcmpl-" + stamp.hex, stamp.time, model, Some(text), index, None)
  }

  function StopChunk(model: string, stamp: Stamp, index: nat): ChatChunk {
    ChatChunk("chatcmpl-" + stamp.hex, stamp.time, model, None, index, Some("stop"))
  }

  /** The delta contents the generator passes on: present and non-empty. */
  function Contents(deltas: seq<Option<string>>): (r: seq<string>)
    ensures |r| <= |deltas|
    ensures forall i :: 0 <= i < |r| ==> r[i] != ""
    decreases |deltas|
  {
    if deltas == [] then []
    else
      var last := deltas[|deltas| - 1];
      Contents(deltas[..|deltas| - 1]) + (if last.Some? && last.value != "" then [last.value] else [])
  }

  function ContentChunks(model: string, stamp: nat -> Stamp, texts: seq<string>): (r: seq<ChatChunk>)
    ensures |r| == |texts|
    ensures forall i :: 0 <= i < |texts| ==> r[i] == ContentChunk(model, stamp(i), texts[i], i)
  {
    seq(|texts|, i requires 0 <= i < |texts| => ContentChunk(model, stamp(i), texts[i], i))
  }

  lemma ContentsStep(deltas: seq<Option<string>>, i: nat)
    requires i < |deltas|
    ensures Contents(deltas[..i + 1]) == Contents(deltas[..i])
      + (if deltas[i].Some? && deltas[i].value != "" then [deltas[i].value] else [])
  {
    var prefix := deltas[..i + 1];
    assert prefix[..|prefix| - 1] == deltas[..i];
    assert prefix[|prefix| - 1] == deltas[i];
  }

  lemma ContentChunksSnoc(model: string, stamp: nat -> Stamp, texts: seq<string>, text: string)
    ensures ContentChunks(model, stamp, texts + [text])
         == ContentChunks(model, stamp, texts) + [ContentChunk(model, stamp(|texts|), text, |texts|)]
  {
  }

  /** Everything the generator yields for a stream: one chunk per non-empty
      delta, then the stop chunk unless the iteration raised. */
  function StreamChunks(model: string, stream: DeltaStream, stamp: nat -> Stamp): seq<ChatChunk> {
    var texts := Contents(stream.deltas);
    ContentChunks(model, stamp, texts)
      + (if stream.raises then [] else [StopChunk(model, stamp(|texts|), |texts|)])
  }

  /** The shape of a completed chunk stream: content chunks numbered
      0, 1, 2, ... with non-empty content and no finish reason, then exactly
      one final chunk with an empty delta, `finish_reason` "stop" and the
      number of content chunks as its index. */
  predicate IsChunkStream(chunks: seq<ChatChunk>, model: string) {
    && |chunks| >= 1
    && (forall i :: 0 <= i < |chunks| ==> chunks[i].index == i && chunks[i].model == model)
    && (forall i :: 0 <= i < |chunks| - 1 ==>
          chunks[i].finishReason.None? && chunks[i].content.Some? && chunks[i].content.value != "")
    && chunks[|chunks| - 1].content.None?
    && chunks[|chunks| - 1].finishReason == Some("stop")
  }

  lemma StreamChunksWellFormed(model: string, stream: DeltaStream, stamp: nat -> Stamp)
    requires !stream.raises
    ensures IsChunkStream(StreamChunks(model, stream, stamp), model)
    ensures |StreamChunks(model, stream, stamp)| == |Contents(stream.deltas)| + 1
  {
    var texts := Contents(stream.deltas);
    var content := ContentChunks(model, stamp, texts);
    var chunks := StreamChunks(model, stream, stamp);
    assert chunks == content + [StopChunk(model, stamp(|texts|), |texts|)];
    forall i | 0 <= i < |chunks| - 1
      ensures chunks[i] == ContentChunk(model, stamp(i), texts[i], i)
    {
      assert chunks[i] == content[i];
    }
  }

  /** The text a stream carries: the deltas' contents, a missing one read as "". */
  function DeltaText(deltas: seq<Option<string>>): string
    decreases |deltas|
  {
    if deltas == [] then [] else DeltaText(deltas[..|deltas| - 1]) + deltas[|deltas| - 1].GetOr("")
  }

  /** The text carried by a sequence of chunks. */
  function ChunkText(chunks: seq<ChatChunk>): string
    decreases |chunks|
  {
    if chunks == [] then [] else ChunkText(chunks[..|chunks| - 1]) + chunks[|chunks| - 1].content.GetOr("")
  }

  lemma {:induction false} ContentsText(deltas: seq<Option<string>>)
    ensures Concat(Contents(deltas)) == DeltaText(deltas)
    decreases |deltas|
  {
    if deltas != [] {
      var n := |deltas| - 1;
      ContentsText(deltas[..n]);
      var last := deltas[n];
      var tail := if last.Some? && last.value != "" then [last.value] else [];
      ConcatAppend(Contents(deltas[..n]), tail);
      assert Concat(tail) == last.GetOr("") by {
        if tail != [] {
          assert tail[1..] == [];
        }
      }
    }
  }

  lemma {:induction false} ContentChunksText(model: string, stamp: nat -> Stamp, texts: seq<string>)
    ensures ChunkText(ContentChunks(model, stamp, texts)) == Concat(texts)
    decreases |texts|
  {
    if texts != [] {
      var n := |texts| - 1;
      assert ContentChunks(model, stamp, texts)[..n] == ContentChunks(model, stamp, texts[..n]);
      ContentChunksText(model, stamp, texts[..n]);
      ConcatAppend(texts[..n], [texts[n]]);
      assert texts[..n] + [texts[n]] == texts;
      assert [texts[n]][1..] == [];
      assert Concat([texts[n]]) == texts[n];
      assert ContentChunks(model, stamp, texts)[n].content == Some(texts[n]);
    }
  }

  /** Streaming loses, adds and reorders no text: the chunks' contents
      concatenate to the deltas' contents. */
  lemma StreamKeepsText(model: string, stream: DeltaStream, stamp: nat -> Stamp)
    ensures ChunkText(StreamChunks(model, stream, stamp)) == DeltaText(stream.deltas)
  {
    var texts := Contents(stream.deltas);
    var chunks := StreamChunks(model, stream, stamp);
    ContentChunksText(model, stamp, texts);
    ContentsText(stream.deltas);
    if !stream.raises {
      assert chunks[..|chunks| - 1] == ContentChunks(model, stamp, texts);
    } else {
      assert chunks == ContentChunks(model, stamp, texts);
    }
  }

  /** The inner `generator()`, driven to its end: the chunks it yields, and
      whether the iteration raised. */
  method Generate(model: string, stream: DeltaStream, stamp: nat -> Stamp)
    returns (chunks: seq<ChatChunk>, raised: bool)
    ensures chunks == StreamChunks(model, stream, stamp)
    ensures raised == stream.raises
  {
    var deltas := stream.deltas;
    chunks := [];
    var index := 0;
    var i := 0;
    while i < |deltas|
      invariant 0 <= i <= |deltas|
      invariant index == |Contents(deltas[..i])|
      invariant chunks == ContentChunks(model, stamp, Contents(deltas[..i]))
    {
      ContentsStep(deltas, i);
      var content := deltas[i];
      if content.Some? && content.value != "" {
        ContentChunksSnoc(model, stamp, Contents(deltas[..i]), content.value);
        chunks := chunks + [ContentChunk(model, stamp(index), content.value, index)];
        index := index + 1;
      }
      i := i + 1;
    }
    assert deltas[..i] == deltas;
    if stream.raises {
      return chunks, true;
    }
    chunks := chunks + [StopChunk(model, stamp(index), index)];
    raised := false;
  }

  // ---------------------------------------------------------------------------
  // The backend and one turn
  // ---------------------------------------------------------------------------

  /** The arguments of `client.chat.completions.create`. */
  datatype ChatCall = ChatCall(
    model: string, messages: seq<ChatMessage>, maxTokens: int, temperature: real, stream: bool)

  /** The OpenAI client: a non-streaming call gives the first choice's message
      content (`None` when the message has no content), a streaming call gives
      the stream; either may raise. */
  datatype ChatBackend = ChatBackend(
    complete: ChatCall -> Result<Option<string>, string>,
    open: ChatCall -> Result<DeltaStream, string>)

  /** What `run` returns: the response content (a string, or `None`), or the
      async generator (here everything it yields, and whether its iteration
      raised). */
  datatype RunOutput = Reply(text: Option<string>) | Streamed(chunks: seq<ChatChunk>, raised: bool)

  /** The backend call and what `run` makes of it: a raising call gives the
      apology string, whatever mode was asked for. */
  function Answer(call: ChatCall, backend: ChatBackend, stamp: nat -> Stamp): (out: RunOutput)
    ensures !call.stream && backend.complete(call).Ok? ==> out == Reply(backend.complete(call).value)
    ensures !call.stream && backend.complete(call).Err? ==> out == Reply(Some(Apology))
    ensures call.stream && backend.open(call).Err? ==> out == Reply(Some(Apology))
    ensures call.stream && backend.open(call).Ok? ==>
      out.Streamed? && out.raised == backend.open(call).value.raises
      && ChunkText(out.chunks) == DeltaText(backend.open(call).value.deltas)
      && (!out.raised ==> IsChunkStream(out.chunks, call.model))
  {
    if call.stream then
      match backend.open(call)
      case Err(_) => Reply(Some(Apology))
      case Ok(s) =>
        StreamKeepsText(call.model, s, stamp);
        if s.raises then Streamed(StreamChunks(call.model, s, stamp), true)
        else
          StreamChunksWellFormed(call.model, s, stamp);
          Streamed(StreamChunks(call.model, s, stamp), false)
    else
      match backend.complete(call)
      case Err(_) => Reply(Some(Apology))
      case Ok(text) => Reply(text)
  }

  /** A stream the backend opens is handed on as the generator's chunks. */
  lemma AnswerStreams(call: ChatCall, backend: ChatBackend, stamp: nat -> Stamp)
    requires call.stream && backend.open(call).Ok?
    ensures Answer(call, backend, stamp)
         == Streamed(StreamChunks(call.model, backend.open(call).value, stamp), backend.open(call).value.raises)
  {
  }

  /** A streaming turn never yields a `str` unless the backend call raised. */
  lemma StreamModeReplyOnlyOnFailure(call: ChatCall, backend: ChatBackend, stamp: nat -> Stamp)
    requires call.stream
    ensures Answer(call, backend, stamp).Reply? <==> backend.open(call).Err?
    ensures Answer(call, backend, stamp).Reply? ==> Answer(call, backend, stamp).text == Some(Apology)
  {
  }

  // ---------------------------------------------------------------------------
  // The agent
  // ---------------------------------------------------------------------------

  /** Why constructing the agent with a RAG source raised. */
  datatype AgentInitError =
    | RagLoadFailed(loadError: LoadError)
    | RagEmbeddingFailed(message: string)
    | RagIndexFailed(retrieverError: RetrieverError)

  class PersonalKnowledgeAgent {
    const stream: bool
    const modelName: string
    const temperature: real
    const maxTokens: int
    const ragEnabled: bool
    const ragSourceDir: Option<string>
    const retriever: Retriever?

    constructor Assemble(
      modelName: string, temperature: real, maxTokens: int, stream: bool,
      ragSourceDir: Option<string>, retriever: Retriever?)
      ensures this.modelName == modelName && this.temperature == temperature
      ensures this.maxTokens == maxTokens && this.stream == stream
      ensures this.ragSourceDir == ragSourceDir && this.retriever == retriever
      ensures this.ragEnabled == ragSourceDir.Some?
    {
      this.modelName := modelName;
      this.temperature := temperature;
      this.maxTokens := maxTokens;
      this.stream := stream;
      this.ragSourceDir := ragSourceDir;
      this.ragEnabled := ragSourceDir.Some?;
      this.retriever := retriever;
    }

    /** `PersonalKnowledgeAgent(model_name, temperature, max_tokens, stream,
        rag_source_dir)`. With a source directory, its documents are loaded
        and chunked with the default settings, embedded by a default
        embedder, and indexed by a retriever built from them (no index
        path); any of these raising makes construction raise. */
    static method Create(
      modelName: string, temperature: real, maxTokens: int, stream: bool,
      ragSourceDir: Option<string>, directory: Directory, split: Splitter,
      embed: EmbeddingBackend, build: FaissBuild, disk: IndexDisk)
      returns (r: Result<PersonalKnowledgeAgent, AgentInitError>)
      modifies disk
      ensures disk.files == old(disk.files)
      ensures ragSourceDir.None? ==> r.Ok? && r.value.retriever == null
      ensures r.Ok? ==>
        && fresh(r.value)
        && r.value.modelName == modelName && r.value.temperature == temperature
        && r.value.maxTokens == maxTokens && r.value.stream == stream
        && r.value.ragEnabled == ragSourceDir.Some?
        && (r.value.ragEnabled <==> r.value.retriever != null)
      ensures ragSourceDir.Some? && directory.Missing? ==>
        r == Err(RagLoadFailed(NotADirectory(ragSourceDir.value)))
      ensures (ragSourceDir.Some? && directory.Dir?
               && KeptDocuments(directory.entries, AllowedExtensions(None)) == []) ==>
        r == Err(RagLoadFailed(NoValidDocuments(ragSourceDir.value)))
      ensures r.Ok? && r.value.retriever != null ==>
        var docs := Chunked(KeptDocuments(directory.entries, AllowedExtensions(None)),
                            DefaultChunkSize, DefaultChunkOverlap, split);
        && directory.Dir?
        && r.value.retriever.embeddingModel == OpenAIEmbeddings
        && r.value.retriever.faissPath == None
        && build(FromDocuments(docs, OpenAIEmbeddings)).Ok?
        && r.value.retriever.vectorstore == Some(build(FromDocuments(docs, OpenAIEmbeddings)).value)
      ensures ragSourceDir.Some? && directory.Dir? ==>
        var kept := KeptDocuments(directory.entries, AllowedExtensions(None));
        var docs := Chunked(kept, DefaultChunkSize, DefaultChunkOverlap, split);
        var vectors := EmbedDocuments(NewDocumentEmbedder(None, None), docs, embed);
        var built := build(FromDocuments(docs, OpenAIEmbeddings));
        && (r.Ok? <==> kept != [] && vectors.Ok? && built.Ok?)
        && (kept != [] && vectors.Err? ==> r == Err(RagEmbeddingFailed(vectors.error)))
        && (kept != [] && vectors.Ok? && built.Err? ==> r == Err(RagIndexFailed(BuildFailed(built.error))))
    {
      if ragSourceDir.None? {
        var agent := new PersonalKnowledgeAgent.Assemble(modelName, temperature, maxTokens, stream, None, null);
        return Ok(agent);
      }
      var loaded := LoadAndChunkDocuments(
        ragSourceDir.value, directory, None, DefaultChunkSize, DefaultChunkOverlap, split);
      if loaded.Err? {
        return Err(RagLoadFailed(loaded.error));
      }
      var docs := loaded.value;
      var embedder := NewDocumentEmbedder(None, None);
      var vectors := EmbedDocuments(embedder, docs, embed);
      if vectors.Err? {
        return Err(RagEmbeddingFailed(vectors.error));
      }
      var indexed := Retriever.Open(embedder.embeddingModel, Some(docs), Some(vectors.value), None, disk, build);
      if indexed.Err? {
        return Err(RagIndexFailed(indexed.error));
      }
      var agent := new PersonalKnowledgeAgent.Assemble(
        modelName, temperature, maxTokens, stream, ragSourceDir, indexed.value);
      return Ok(agent);
    }

    /** What `retrieve_context(user_query, top_k)` returns. */
    function ContextFor(userQuery: string, topK: int, search: SimilaritySearch): (r: seq<ChatMessage>)
      reads retriever
      ensures !ragEnabled || retriever == null ==> r == []
      ensures ragEnabled && retriever != null ==>
        r == ContextMessages(retriever.Query(userQuery, topK, search))
    {
      if !ragEnabled || retriever == null then []
      else ContextMessages(retriever.Query(userQuery, topK, search))
    }

    /** `retrieve_context(user_query, top_k)`: nothing without RAG or a
        retriever; otherwise one context message per retrieved document. */
    method RetrieveContext(userQuery: string, topK: int, search: SimilaritySearch)
      returns (messages: seq<ChatMessage>)
      ensures messages == ContextFor(userQuery, topK, search)
    {
      if !ragEnabled || retriever == null {
        return [];
      }
      var documents := retriever.Query(userQuery, topK, search);
      messages := [];
      var i := 0;
      while i < |documents|
        invariant 0 <= i <= |documents|
        invariant messages == ContextMessages(documents[..i])
      {
        ContextMessagesStep(documents, i);
        messages := messages + [ContextMessage(documents[i])];
        i := i + 1;
      }
      assert documents[..i] == documents;
    }

    /** `_convert_messages(messages)`. */
    method ConvertMessages(messages: seq<RawMessage>) returns (converted: seq<ChatMessage>)
      ensures converted == Converted(messages)
    {
      converted := [];
      var i := 0;
      while i < |messages|
        invariant 0 <= i <= |messages|
        invariant converted == Converted(messages[..i])
      {
        assert messages[..i + 1][..i] == messages[..i];
        var role := messages[i].role;
        if role.Some? && role.value in ["user", "assistant", "system"] {
          converted := converted + [ChatMessage(role.value, messages[i].content.GetOr(""))];
        }
        i := i + 1;
      }
      assert messages[..i] == messages;
    }

    /** The call `run` makes on the backend. */
    function CallFor(
      messages: seq<RawMessage>, includeContext: bool, explicit: Option<seq<ChatMessage>>,
      search: SimilaritySearch)
      : (c: ChatCall)
      reads retriever
      ensures c.model == modelName && c.maxTokens == maxTokens
      ensures c.temperature == temperature && c.stream == stream
      ensures var chat := Converted(messages);
        var q := LastUserQuery(chat);
        c.messages == Fused(chat, includeContext, ragEnabled,
                            if q.Some? then ContextFor(q.value, DefaultTopK, search) else [], explicit)
    {
      var chat := Converted(messages);
      var q := LastUserQuery(chat);
      ChatCall(modelName,
               Fused(chat, includeContext, ragEnabled,
                     if q.Some? then ContextFor(q.value, DefaultTopK, search) else [], explicit),
               maxTokens, temperature, stream)
    }

    /** The first half of `run`: the converted messages with the context
        that `include_context` or `context_messages` selects. */
    method Prompt(
      messages: seq<RawMessage>, includeContext: bool, explicit: Option<seq<ChatMessage>>,
      search: SimilaritySearch)
      returns (chat: seq<ChatMessage>)
      ensures chat == CallFor(messages, includeContext, explicit, search).messages
    {
      chat := ConvertMessages(messages);
      if includeContext {
        var userMessage := LastUserQuery(chat);
        if userMessage.Some? && ragEnabled {
          var context := RetrieveContext(userMessage.value, DefaultTopK, search);
          chat := context + chat;
        }
      } else if explicit.Some? && explicit.value != [] {
        chat := explicit.value + chat;
      }
    }

    /** `run(messages, include_context, context_messages)`. */
    method Run(
      messages: seq<RawMessage>, includeContext: bool, explicit: Option<seq<ChatMessage>>,
      search: SimilaritySearch, backend: ChatBackend, stamp: nat -> Stamp)
      returns (out: RunOutput)
      ensures out == Answer(CallFor(messages, includeContext, explicit, search), backend, stamp)
    {
      var chat := Prompt(messages, includeContext, explicit, search);
      var call := ChatCall(modelName, chat, maxTokens, temperature, stream);
      assert call == CallFor(messages, includeContext, explicit, search);
      if stream {
        var response := backend.open(call);
        if response.Err? {
          return Reply(Some(Apology));
        }
        var chunks, raised := Generate(modelName, response.value, stamp);
        AnswerStreams(call, backend, stamp);
        return Streamed(chunks, raised);
      }
      var completed := backend.complete(call);
      if completed.Err? {
        return Reply(Some(Apology));
      }
      return Reply(completed.value);
    }
  }
}

=== FILE: base.dfy ===
/** Failure-carrying wrappers and the few Python string operations the
    chat pipeline relies on (str.isspace, str.strip, str.lower,
    str.startswith / str.endswith, str.join, int formatting). */
module Base {

  datatype Option<+T> = None | Some(value: T) {
    function GetOr(default: T): T {
      match this
      case Some(v) => v
      case None => default
    }

    function ToSeq(): (r: seq<T>)
      ensures |r| <= 1
    {
      match this
      case Some(v) => [v]
      case None => []
    }
  }

  /** A Python call that either returns a value or raises. */
  datatype Result<+T, +E> = Ok(value: T) | Err(error: E)

  // ---------------------------------------------------------------------------
  // Characters
  // ---------------------------------------------------------------------------

  /** Python's str.isspace() on one code point. */
  predicate IsSpace(c: char) {
    || c == ' '
    || ('\t' <= c <= '\r')
    || ('\U{1c}' <= c <= '\U{1f}')
    || c == '\U{85}' || c == '\U{a0}' || c == '\U{1680}'
    || ('\U{2000}' <= c <= '\U{200a}')
    || c == '\U{2028}' || c == '\U{2029}' || c == '\U{202f}'
    || c == '\U{205f}' || c == '\U{3000}'
  }

  /** The code points at which Python's str.splitlines() ends a line. */
  predicate IsLineBreak(c: char) {
    || c == '\n' || c == '\r' || c == '\U{0b}' || c == '\U{0c}'
    || ('\U{1c}' <= c <= '\U{1e}')
    || c == '\U{85}' || c == '\U{2028}' || c == '\U{2029}'
  }

  /** Printable ASCII: the range json.dumps(ensure_ascii=True) leaves unescaped. */
  predicate IsPrintableAscii(c: char) {
    ' ' <= c <= '~'
  }

  predicate Printable(s: string) {
    forall i :: 0 <= i < |s| ==> IsPrintableAscii(s[i])
  }

  predicate HasNoLineBreak(s: string) {
    forall i :: 0 <= i < |s| ==> !IsLineBreak(s[i])
  }

  lemma PrintableConcat(a: string, b: string)
    requires Printable(a) && Printable(b)
    ensures Printable(a + b)
  {
    forall i | 0 <= i < |a + b| ensures IsPrintableAscii((a + b)[i]) {
      if i < |a| {
        assert (a + b)[i] == a[i];
      } else {
        assert (a + b)[i] == b[i - |a|];
      }
    }
  }

  lemma PrintableHasNoLineBreak(s: string)
    requires Printable(s)
    ensures HasNoLineBreak(s)
  {
  }

  /** str.lower() on the ASCII letters; other code points are kept. */
  function LowerChar(c: char): (r: char)
    ensures 'A' <= c <= 'Z' ==> 'a' <= r <= 'z' && r as int == c as int + 32
    ensures !('A' <= c <= 'Z') ==> r == c
  {
    if 'A' <= c <= 'Z' then (c as int + 32) as char else c
  }

  function Lower(s: string): (r: string)
    ensures |r| == |s|
    ensures forall i :: 0 <= i < |s| ==> r[i] == LowerChar(s[i])
  {
    seq(|s|, i requires 0 <= i < |s| => LowerChar(s[i]))
  }

  // ---------------------------------------------------------------------------
  // Prefixes, suffixes, stripping
  // ---------------------------------------------------------------------------

  predicate StartsWith(s: string, prefix: string) {
    |prefix| <= |s| && s[..|prefix|] == prefix
  }

  predicate EndsWith(s: string, suffix: string) {
    |suffix| <= |s| && s[|s| - |suffix|..] == suffix
  }

  predicate IsBlank(s: string) {
    forall i :: 0 <= i < |s| ==> IsSpace(s[i])
  }

  /** The number of whitespace code points `s` starts with. */
  function LeadingSpaces(s: string): (k: nat)
    ensures k <= |s|
    ensures forall j :: 0 <= j < k ==> IsSpace(s[j])
    ensures k < |s| ==> !IsSpace(s[k])
    decreases |s|
  {
    if s != [] && IsSpace(s[0]) then 1 + LeadingSpaces(s[1..]) else 0
  }

  /** The number of whitespace code points `s` ends with. */
  function TrailingSpaces(s: string): (k: nat)
    ensures k <= |s|
    ensures forall j :: |s| - k <= j < |s| ==> IsSpace(s[j])
    ensures k < |s| ==> !IsSpace(s[|s| - k - 1])
    decreases |s|
  {
    if s != [] && IsSpace(s[|s| - 1]) then 1 + TrailingSpaces(s[..|s| - 1]) else 0
  }

  /** str.lstrip() */
  function StripLeft(s: string): (r: string)
    ensures |r| <= |s| && r == s[|s| - |r|..]
    ensures r != [] ==> !IsSpace(r[0])
    ensures IsBlank(s[..|s| - |r|])
  {
    s[LeadingSpaces(s)..]
  }

  /** str.rstrip() */
  function StripRight(s: string): (r: string)
    ensures |r| <= |s| && r == s[..|r|]
    ensures r != [] ==> !IsSpace(r[|r| - 1])
    ensures IsBlank(s[|r|..])
  {
    s[..|s| - TrailingSpaces(s)]
  }

  /** str.strip() with no argument. */
  function Strip(s: string): (r: string) {
    StripRight(StripLeft(s))
  }

  /** A string whose ends are not whitespace is its own strip. */
  lemma StripUntrimmed(s: string)
    requires s != [] ==> !IsSpace(s[0]) && !IsSpace(s[|s| - 1])
    ensures Strip(s) == s
  {
  }

  /** `not s.strip()` holds exactly for whitespace-only strings. */
  lemma {:induction false} StripEmptyIffBlank(s: string)
    ensures Strip(s) == [] <==> IsBlank(s)
  {
    var l := StripLeft(s);
    if Strip(s) == [] {
      assert IsBlank(l[0..]);
      assert l == [];
      assert s[..|s|] == s;
    } else {
      var r := Strip(s);
      assert r == StripRight(l);
      assert !IsSpace(r[0]);
      assert r[0] == l[0] == s[|s| - |l|];
    }
  }

  // ---------------------------------------------------------------------------
  // Joining and formatting
  // ---------------------------------------------------------------------------

  /** `[f(x) for x in s]` */
  function Map<A, B>(f: A -> B, s: seq<A>): (r: seq<B>)
    ensures |r| == |s|
    decreases |s|
  {
    if s == [] then [] else [f(s[0])] + Map(f, s[1..])
  }

  lemma {:induction false} MapAt<A, B>(f: A -> B, s: seq<A>, i: nat)
    requires i < |s|
    ensures Map(f, s)[i] == f(s[i])
    decreases |s|
  {
    if i > 0 {
      MapAt(f, s[1..], i - 1);
    }
  }

  lemma {:induction false} MapAppend<A, B>(f: A -> B, a: seq<A>, b: seq<A>)
    ensures Map(f, a + b) == Map(f, a) + Map(f, b)
    decreases |a|
  {
    if a == [] {
      assert a + b == b;
    } else {
      assert (a + b)[1..] == a[1..] + b;
      MapAppend(f, a[1..], b);
    }
  }

  lemma MapStep<A, B>(f: A -> B, s: seq<A>, i: nat)
    requires i < |s|
    ensures Map(f, s[..i + 1]) == Map(f, s[..i]) + [f(s[i])]
  {
    assert s[..i + 1] == s[..i] + [s[i]];
    MapAppend(f, s[..i], [s[i]]);
    assert Map(f, [s[i]]) == [f(s[i])];
  }

  /** `[y for x in s if (y := f(x)) is not None]`: the present results of
      `f`, in the order of `s`. */
  function FilterMap<A, B>(f: A -> Option<B>, s: seq<A>): (r: seq<B>)
    ensures |r| <= |s|
    decreases |s|
  {
    if s == [] then []
    else FilterMap(f, s[..|s| - 1]) + f(s[|s| - 1]).ToSeq()
  }

  lemma FilterMapStep<A, B>(f: A -> Option<B>, s: seq<A>, i: nat)
    requires i < |s|
    ensures FilterMap(f, s[..i + 1]) == FilterMap(f, s[..i]) + f(s[i]).ToSeq()
  {
    var prefix := s[..i + 1];
    assert prefix[..|prefix| - 1] == s[..i];
    assert prefix[|prefix| - 1] == s[i];
  }

  lemma {:induction false} FilterMapAppend<A, B>(f: A -> Option<B>, a: seq<A>, b: seq<A>)
    ensures FilterMap(f, a + b) == FilterMap(f, a) + FilterMap(f, b)
    decreases |b|
  {
    if b == [] {
      assert a + b == a;
    } else {
      assert (a + b)[..|a + b| - 1] == a + b[..|b| - 1];
      FilterMapAppend(f, a, b[..|b| - 1]);
    }
  }

  /** Every result kept is `f` of some element. */
  lemma {:induction false} FilterMapFrom<A, B>(f: A -> Option<B>, s: seq<A>, y: B)
    requires y in FilterMap(f, s)
    ensures exists i :: 0 <= i < |s| && f(s[i]) == Some(y)
    decreases |s|
  {
    var init := s[..|s| - 1];
    if y in FilterMap(f, init) {
      FilterMapFrom(f, init, y);
      var i :| 0 <= i < |init| && f(init[i]) == Some(y);
      assert s[i] == init[i];
    } else {
      assert f(s[|s| - 1]) == Some(y);
    }
  }

  /** "".join(parts) */
  function Concat(parts: seq<string>): (r: string)
    decreases |parts|
  {
    if parts == [] then [] else parts[0] + Concat(parts[1..])
  }

  lemma {:induction false} ConcatAppend(a: seq<string>, b: seq<string>)
    ensures Concat(a + b) == Concat(a) + Concat(b)
    decreases |a|
  {
    if a != [] {
      assert (a + b)[1..] == a[1..] + b;
      ConcatAppend(a[1..], b);
    } else {
      assert a + b == b;
    }
  }

  /** sep.join(parts) */
  function Join(sep: string, parts: seq<string>): (r: string)
    decreases |parts|
  {
    if parts == [] then []
    else if |parts| == 1 then parts[0]
    else parts[0] + sep + Join(sep, parts[1..])
  }

  function DigitChar(d: nat): (c: char)
    requires d < 10
    ensures '0' <= c <= '9'
  {
    ('0' as int + d) as char
  }

  /** str(n) for a non-negative int. */
  function NatToString(n: nat): (r: string)
    ensures r != [] && Printable(r)
    ensures forall i :: 0 <= i < |r| ==> '0' <= r[i] <= '9'
    decreases n
  {
    if n < 10 then [DigitChar(n)] else NatToString(n / 10) + [DigitChar(n % 10)]
  }

  /** str(i) for any int. */
  function IntToString(i: int): (r: string)
    ensures r != [] && Printable(r)
    ensures i < 0 <==> r[0] == '-'
  {
    if i < 0 then "-" + NatToString(-i) else NatToString(i)
  }

  /** The position of the last occurrence of `c` in `s`, or -1 (str.rfind). */
  function RFind(s: string, c: char): (k: int)
    ensures -1 <= k < |s|
    ensures k >= 0 ==> s[k] == c
    ensures forall j :: k < j < |s| ==> s[j] != c
    decreases |s|
  {
    if s == [] then -1
    else if s[|s| - 1] == c then |s| - 1
    else RFind(s[..|s| - 1], c)
  }
}

=== FILE: client.dfy ===
/** The frontend's HTTP client for the agent API
    (frontend/src/services/agent.py): the message window, the request
    payload, the server-sent-events line parser, the parsing of a JSON reply
    and the mapping of errors to a reply.

    `requests.post` is a parameter: it gives the server's reply or the
    message of the `RequestException` it raises. */
module Client {
  import opened Base
  import opened Records
  import opened Json

  /** An `AgentService`; its fields are never reassigned. */
  datatype AgentService = AgentService(apiUrl: string, timeout: int)

  const DefaultTimeout := 60
  const EmptyUrlMessage := "AgentService requires a non-empty api_url."

  /** `AgentService(api_url, timeout)`: an empty URL raises ValueError. */
  function NewAgentService(apiUrl: string, timeout: int): (r: Result<AgentService, string>)
    ensures r.Err? <==> apiUrl == ""
    ensures r.Err? ==> r.error == EmptyUrlMessage
    ensures r.Ok? ==> r.value.apiUrl == apiUrl && r.value.timeout == timeout
  {
    if apiUrl == "" then Err(EmptyUrlMessage) else Ok(AgentService(apiUrl, timeout))
  }

  // ---------------------------------------------------------------------------
  // The message window and the payload
  // ---------------------------------------------------------------------------

  /** Where Python's `xs[start:]` begins in a list of length `len`: a
      negative start counts from the end and both are clamped to the list. */
  function SliceStart(len: nat, start: int): (k: nat)
    ensures k <= len
    ensures start >= 0 ==> k == if start <= len then start else len
    ensures start < 0 ==> k == if -start <= len then len + start else 0
  {
    if start >= 0 then (if start <= len then start else len)
    else if -start <= len then len + start else 0
  }

  /** `chat_history[-n_last:]`: the last `n_last` entries for a positive
      count; `-0` is `0`, so a zero count keeps everything; a negative count
      drops the first `-n_last` entries. */
  function Window(history: seq<RawMessage>, nLast: int): (w: seq<RawMessage>)
    ensures nLast > 0 ==> |w| == (if nLast <= |history| then nLast else |history|)
    ensures |w| <= |history| && w == history[|history| - |w|..]
    ensures nLast == 0 ==> w == history
    ensures nLast < 0 ==> |w| == (if -nLast <= |history| then |history| + nLast else 0)
  {
    history[SliceStart(|history|, -nLast)..]
  }

  /** `msg.get("role") and msg.get("content")`: both present and non-empty. */
  predicate Sendable(m: RawMessage) {
    m.role.Some? && m.role.value != "" && m.content.Some? && m.content.value != ""
  }

  /** The sendable messages, in order, reduced to role and content. */
  function KeepSendable(messages: seq<RawMessage>): (r: seq<ChatMessage>)
    ensures |r| <= |messages|
    ensures forall i :: 0 <= i < |r| ==> r[i].role != "" && r[i].content != ""
    decreases |messages|
  {
    if messages == [] then []
    else
      var last := messages[|messages| - 1];
      KeepSendable(messages[..|messages| - 1])
        + (if Sendable(last) then [ChatMessage(last.role.value, last.content.value)] else [])
  }

  /** Appending a message to the history appends its reduced form exactly
      when it is sendable. */
  lemma KeepSendableStep(messages: seq<RawMessage>, m: RawMessage)
    ensures KeepSendable(messages + [m])
         == KeepSendable(messages) + (if Sendable(m) then [ChatMessage(m.role.value, m.content.value)] else [])
  {
    assert (messages + [m])[..|messages + [m]| - 1] == messages;
  }

  /** Every sendable message is sent, reduced to its own role and content. */
  lemma KeepsEverySendable(messages: seq<RawMessage>, i: nat)
    requires i < |messages| && Sendable(messages[i])
    ensures ChatMessage(messages[i].role.value, messages[i].content.value) in KeepSendable(messages)
  {
    var m := messages[i];
    assert messages == (messages[..i] + [m]) + messages[i + 1..];
    KeepSendableAppend(messages[..i] + [m], messages[i + 1..]);
    KeepSendableStep(messages[..i], m);
  }

  /** Every message sent is the reduced form of a sendable message. */
  lemma {:induction false} KeepSendableFrom(messages: seq<RawMessage>, c: ChatMessage)
    requires c in KeepSendable(messages)
    ensures exists i ::
      && 0 <= i < |messages| && Sendable(messages[i])
      && c == ChatMessage(messages[i].role.value, messages[i].content.value)
    decreases |messages|
  {
    var init := messages[..|messages| - 1];
    if c in KeepSendable(init) {
      KeepSendableFrom(init, c);
      var i :|
        && 0 <= i < |init| && Sendable(init[i])
        && c == ChatMessage(init[i].role.value, init[i].content.value);
      assert messages[i] == init[i];
    }
  }

  /** `recent_messages` */
  function RecentMessages(history: seq<RawMessage>, nLast: int): (r: seq<ChatMessage>)
    ensures nLast > 0 ==> |r| <= nLast
    ensures nLast == 0 ==> r == KeepSendable(history)
    ensures forall i :: 0 <= i < |r| ==> r[i].role != "" && r[i].content != ""
  {
    KeepSendable(Window(history, nLast))
  }

  lemma {:induction false} KeepSendableAppend(a: seq<RawMessage>, b: seq<RawMessage>)
    ensures KeepSendable(a + b) == KeepSendable(a) + KeepSendable(b)
    decreases |b|
  {
    if b == [] {
      assert a + b == a;
    } else {
      assert (a + b)[..|a + b| - 1] == a + b[..|b| - 1];
      KeepSendableAppend(a, b[..|b| - 1]);
    }
  }

  /** Messages of the history that are sent keep their relative order: the
      messages sent for a window are a suffix of those the whole history
      would give. */
  lemma WindowIsSuffix(history: seq<RawMessage>, nLast: int)
    ensures var all := KeepSendable(history);
      var recent := RecentMessages(history, nLast);
      |recent| <= |all| && recent == all[|all| - |recent|..]
  {
    var w := Window(history, nLast);
    var k := |history| - |w|;
    assert history == history[..k] + w;
    KeepSendableAppend(history[..k], w);
  }

  /** Every sendable message among the last `n_last` entries is sent. */
  lemma RecentKeepsSendable(history: seq<RawMessage>, nLast: int, i: nat)
    requires nLast > 0 && |history| - nLast <= i < |history| && Sendable(history[i])
    ensures ChatMessage(history[i].role.value, history[i].content.value) in RecentMessages(history, nLast)
  {
    var w := Window(history, nLast);
    var j := i - (|history| - |w|);
    assert w[j] == history[i];
    KeepsEverySendable(w, j);
  }

  /** The JSON body `send_chat_history` posts. */
  datatype Payload = Payload(
    model: string, messages: seq<ChatMessage>, temperature: real, maxTokens: int,
    stream: bool, includeContext: bool)

  function PayloadFor(
    history: seq<RawMessage>, model: string, temperature: real, maxTokens: int,
    includeContext: bool, stream: bool, nLast: int)
    : (p: Payload)
    ensures p.messages == RecentMessages(history, nLast)
    ensures p.model == model && p.temperature == temperature && p.maxTokens == maxTokens
    ensures p.stream == stream && p.includeContext == includeContext
  {
    Payload(model, RecentMessages(history, nLast), temperature, maxTokens, stream, includeContext)
  }

  // ---------------------------------------------------------------------------
  // The event-stream lines
  // ---------------------------------------------------------------------------

  /** The length of the first line of `s` (up to its first line break). */
  function LineEnd(s: string): (k: nat)
    ensures k <= |s|
    ensures forall j :: 0 <= j < k ==> !IsLineBreak(s[j])
    ensures k < |s| ==> IsLineBreak(s[k])
    decreases |s|
  {
    if s == [] || IsLineBreak(s[0]) then 0 else 1 + LineEnd(s[1..])
  }

  /** `str.splitlines()`: lines without their breaks, "\r\n" counting as one
      break, and no empty line after a final break. */
  function SplitLines(s: string): (lines: seq<string>)
    decreases |s|
  {
    if s == [] then []
    else
      var k := LineEnd(s);
      if k == |s| then [s]
      else
        var next := if s[k] == '\r' && k + 1 < |s| && s[k + 1] == '\n' then k + 2 else k + 1;
        [s[..k]] + SplitLines(s[next..])
  }

  /** No line that `splitlines` gives contains a line break. */
  lemma {:induction false} SplitLinesHaveNoBreaks(s: string)
    ensures forall i :: 0 <= i < |SplitLines(s)| ==> HasNoLineBreak(SplitLines(s)[i])
    decreases |s|
  {
    if s != [] {
      var k := LineEnd(s);
      var first := s[..k];
      assert HasNoLineBreak(first);
      if k < |s| {
        var next := if s[k] == '\r' && k + 1 < |s| && s[k + 1] == '\n' then k + 2 else k + 1;
        var rest := SplitLines(s[next..]);
        SplitLinesHaveNoBreaks(s[next..]);
        assert SplitLines(s) == [first] + rest;
        forall i | 0 <= i < |SplitLines(s)| ensures HasNoLineBreak(SplitLines(s)[i]) {
          if i > 0 {
            assert SplitLines(s)[i] == rest[i - 1];
          }
        }
      } else {
        assert first == s;
      }
    }
  }

  const DataPrefix := "data: "
  const DoneMarker := "[DONE]"

  /** The payload of a line with the `data: ` prefix, stripped. */
  function LinePayload(line: string): (d: Option<string>)
    ensures d.Some? <==> StartsWith(line, DataPrefix)
    ensures d.Some? ==> d.value == Strip(line[|DataPrefix|..])
  {
    if StartsWith(line, DataPrefix) then Some(Strip(line[|DataPrefix|..])) else None
  }

  /** What the parser does with one line. */
  datatype Step = Skip | Yield(payload: string) | Stop

  /** Empty lines, lines without the prefix and empty payloads are skipped;
      a `[DONE]` payload stops; any other payload is yielded. */
  function LineStep(line: string): (step: Step)
    ensures step.Yield? ==> step.payload != "" && step.payload != DoneMarker
  {
    if line == "" then Skip
    else
      match LinePayload(line)
      case None => Skip
      case Some(d) => if d == DoneMarker then Stop else if d == "" then Skip else Yield(d)
  }

  /** The step taken at each line. */
  function Steps(lines: seq<string>): (steps: seq<Step>)
    ensures |steps| == |lines|
  {
    Map(LineStep, lines)
  }

  /** The payloads yielded by a run of steps: every `Yield` up to the first
      `Stop`, in order. */
  function Yielded(steps: seq<Step>): (r: seq<string>)
    ensures |r| <= |steps|
    decreases |steps|
  {
    if steps == [] then []
    else
      match steps[0]
      case Skip => Yielded(steps[1..])
      case Stop => []
      case Yield(d) => [d] + Yielded(steps[1..])
  }

  /** What `stream_generator` yields for a list of lines: the payloads of
      the lines up to the first `[DONE]`, in order. */
  function StreamPayloads(lines: seq<string>): (r: seq<string>)
    ensures |r| <= |lines|
  {
    Yielded(Steps(lines))
  }

  /** No payload yielded is empty or `[DONE]`. */
  lemma StreamPayloadsClean(lines: seq<string>)
    ensures forall i :: 0 <= i < |StreamPayloads(lines)| ==>
      StreamPayloads(lines)[i] != "" && StreamPayloads(lines)[i] != DoneMarker
  {
    StepsAt(lines);
    YieldedPayloads(Steps(lines));
  }

  lemma {:induction false} YieldedPayloads(steps: seq<Step>)
    requires forall i :: 0 <= i < |steps| && steps[i].Yield? ==>
      steps[i].payload != "" && steps[i].payload != DoneMarker
    ensures forall i :: 0 <= i < |Yielded(steps)| ==>
      Yielded(steps)[i] != "" && Yielded(steps)[i] != DoneMarker
    decreases |steps|
  {
    if steps != [] {
      YieldedPayloads(steps[1..]);
    }
  }

  /** Nothing after the first `Stop` is yielded. */
  lemma {:induction false} YieldedStopsAtStop(before: seq<Step>, after: seq<Step>)
    requires forall i :: 0 <= i < |before| ==> !before[i].Stop?
    ensures Yielded(before + [Stop] + after) == Yielded(before)
    decreases |before|
  {
    var steps := before + [Stop] + after;
    if before == [] {
      assert steps[0] == Stop;
    } else {
      YieldedStopsAtStop(before[1..], after);
      assert steps[1..] == before[1..] + [Stop] + after;
      assert steps[0] == before[0];
    }
  }

  lemma StepsAt(lines: seq<string>)
    ensures forall i :: 0 <= i < |lines| ==> Steps(lines)[i] == LineStep(lines[i])
  {
    forall i | 0 <= i < |lines| ensures Steps(lines)[i] == LineStep(lines[i]) {
      MapAt(LineStep, lines, i);
    }
  }

  lemma StepsAppend(a: seq<string>, b: seq<string>)
    ensures Steps(a + b) == Steps(a) + Steps(b)
  {
    MapAppend(LineStep, a, b);
  }

  /** Nothing after the first `[DONE]` line is yielded. */
  lemma PayloadsStopAtDone(before: seq<string>, done: string, after: seq<string>)
    requires forall i :: 0 <= i < |before| ==> !LineStep(before[i]).Stop?
    requires LineStep(done).Stop?
    ensures StreamPayloads(before + [done] + after) == StreamPayloads(before)
  {
    StepsAppend(before + [done], after);
    StepsAppend(before, [done]);
    assert Steps([done]) == [Stop];
    StepsAt(before);
    YieldedStopsAtStop(Steps(before), Steps(after));
  }

  /** How the payloads collected so far and those still to come change
      with the step at position `i`. */
  lemma YieldedStep(steps: seq<Step>, i: nat, payloads: seq<string>, total: seq<string>)
    requires i < |steps| && payloads + Yielded(steps[i..]) == total
    ensures steps[i].Skip? ==> payloads + Yielded(steps[i + 1..]) == total
    ensures steps[i].Yield? ==> (payloads + [steps[i].payload]) + Yielded(steps[i + 1..]) == total
    ensures steps[i].Stop? ==> payloads == total
  {
    assert steps[i..][0] == steps[i] && steps[i..][1..] == steps[i + 1..];
    if steps[i].Yield? {
      assert payloads + ([steps[i].payload] + Yielded(steps[i + 1..]))
        == (payloads + [steps[i].payload]) + Yielded(steps[i + 1..]);
    } else if steps[i].Stop? {
      assert payloads + [] == payloads;
    }
  }

  /** The effect of line `i` on the payloads collected so far, for each
      branch the generator takes on it. */
  lemma ParseLine(lines: seq<string>, i: nat, payloads: seq<string>)
    requires i < |lines| && payloads + Yielded(Steps(lines)[i..]) == StreamPayloads(lines)
    ensures lines[i] == "" || LinePayload(lines[i]).None? || LinePayload(lines[i]).value == ""
      ==> payloads + Yielded(Steps(lines)[i + 1..]) == StreamPayloads(lines)
    ensures lines[i] != "" && LinePayload(lines[i]).Some? && LinePayload(lines[i]).value == DoneMarker
      ==> payloads == StreamPayloads(lines)
    ensures lines[i] != "" && LinePayload(lines[i]).Some? && LinePayload(lines[i]).value != DoneMarker
      && LinePayload(lines[i]).value != ""
      ==> (payloads + [LinePayload(lines[i]).value]) + Yielded(Steps(lines)[i + 1..]) == StreamPayloads(lines)
  {
    YieldedStep(Steps(lines), i, payloads, StreamPayloads(lines));
    MapAt(LineStep, lines, i);
  }

  /** `stream_generator()`, driven to its end over the response's lines:
      empty lines are skipped; a `data: ` line's stripped payload stops the
      generator when it is `[DONE]` and is yielded when it is not empty. */
  method ParseStream(lines: seq<string>) returns (payloads: seq<string>)
    ensures payloads == StreamPayloads(lines)
  {
    payloads := [];
    var i := 0;
    while i < |lines|
      invariant 0 <= i <= |lines|
      invariant payloads + Yielded(Steps(lines)[i..]) == StreamPayloads(lines)
    {
      var line := lines[i];
      ParseLine(lines, i, payloads);
      if line == "" {
        i := i + 1;
        continue;
      }
      var data := LinePayload(line);
      if data.Some? {
        if data.value == DoneMarker {
          return;
        }
        if data.value != "" {
          payloads := payloads + [data.value];
        }
      }
      i := i + 1;
    }
    assert Steps(lines)[i..] == [];
  }

  // ---------------------------------------------------------------------------
  // Replies
  // ---------------------------------------------------------------------------

  /** `{"content": ..., "reasoning": [...]}` */
  datatype ClientReply = ClientReply(content: JValue, reasoning: seq<JValue>)

  const NoResponseField := "⚠️ No response field found."
  const RequestErrorPrefix := "❌ Request error: "
  const UnexpectedErrorPrefix := "❌ Unexpected error: "
  const IndexErrorMessage := "list index out of range"

  /** The AttributeError message for `.get` on a decoded non-dictionary. */
  function NoGetMessage(v: JValue): string {
    "'" + PyTypeName(v) + "' object has no attribute 'get'"
  }

  /** `_parse_response(data)`: a `response` key wins outright; otherwise a
      list under `choices` whose first entry's `message.content` is truthy
      gives that content; otherwise the fallback text. Indexing an empty
      list or calling `.get` on a non-dictionary raises (`Err`). */
  function ParseResponse(data: map<string, JValue>): (r: Result<JValue, string>)
    ensures "response" in data ==> r == Ok(data["response"])
    ensures !("response" in data) && !("choices" in data && data["choices"].JArr?) ==>
      r == Ok(JStr(NoResponseField))
    ensures r.Err? ==>
      && "response" !in data && "choices" in data && data["choices"].JArr?
      && (data["choices"].items == [] ==> r.error == IndexErrorMessage)
    ensures r.Ok? && "response" !in data ==> Truthy(r.value) || r.value == JStr(NoResponseField)
  {
    if "response" in data then Ok(data["response"])
    else if "choices" in data && data["choices"].JArr? then
      var items := data["choices"].items;
      if items == [] then Err(IndexErrorMessage)
      else if !items[0].JObj? then Err(NoGetMessage(items[0]))
      else
        var choice := items[0].fields;
        var message := if "message" in choice then choice["message"] else JObj(map[]);
        if !message.JObj? then Err(NoGetMessage(message))
        else
          var content := if "content" in message.fields then message.fields["content"] else JNull;
          if Truthy(content) then Ok(content) else Ok(JStr(NoResponseField))
    else Ok(JStr(NoResponseField))
  }

  /** An OpenAI-style reply yields its message content when that is truthy,
      the fallback text otherwise. */
  lemma ParsesOpenAIShape(data: map<string, JValue>, message: map<string, JValue>, content: JValue)
    requires "response" !in data && "choices" in data
    requires data["choices"].JArr? && |data["choices"].items| >= 1
    requires data["choices"].items[0].JObj?
    requires "message" in data["choices"].items[0].fields
    requires data["choices"].items[0].fields["message"] == JObj(message)
    requires "content" in message && message["content"] == content
    ensures ParseResponse(data) == Ok(if Truthy(content) then content else JStr(NoResponseField))
  {
  }

  /** Python's `sub in s` on strings. */
  predicate HasSubstring(s: string, sub: string)
    decreases |s|
  {
    StartsWith(s, sub) || (s != [] && HasSubstring(s[1..], sub))
  }

  const ListIndexMessage := "list indices must be integers or slices, not str"
  const StringIndexMessage := "string indices must be integers, not 'str'"

  /** The TypeError message for `key in v` on a value that is not iterable. */
  function NotIterableMessage(v: JValue): string {
    "argument of type '" + PyTypeName(v) + "' is not iterable"
  }

  /** `_parse_response(response.json())` for whatever the body decodes to.
      A dictionary is parsed as above. On a list `in` tests the elements and
      on a string it tests substrings; either way a `"response"` or
      `"choices"` hit is then used as an index, which raises, and no hit
      gives the fallback text. Any other value is not iterable, so the first
      `in` raises. */
  function ParseBody(data: JValue): (r: Result<JValue, string>)
    ensures data.JObj? ==> r == ParseResponse(data.fields)
    ensures data.JArr? ==>
      (r.Err? <==> JStr("response") in data.items || JStr("choices") in data.items)
    ensures data.JStr? ==>
      (r.Err? <==> HasSubstring(data.s, "response") || HasSubstring(data.s, "choices"))
    ensures data.JArr? && r.Err? ==> r.error == ListIndexMessage
    ensures data.JStr? && r.Err? ==> r.error == StringIndexMessage
    ensures !data.JObj? && !data.JArr? && !data.JStr? ==> r == Err(NotIterableMessage(data))
    ensures r.Ok? && !data.JObj? ==> r.value == JStr(NoResponseField)
  {
    match data
    case JObj(fields) => ParseResponse(fields)
    case JArr(items) =>
      if JStr("response") in items || JStr("choices") in items then Err(ListIndexMessage)
      else Ok(JStr(NoResponseField))
    case JStr(text) =>
      if HasSubstring(text, "response") || HasSubstring(text, "choices") then Err(StringIndexMessage)
      else Ok(JStr(NoResponseField))
    case _ => Err(NotIterableMessage(data))
  }

  /** The server's answer as `requests` sees it: status, reason, final URL,
      body text and the body's JSON decoding (a value, or the decode error's
      message). */
  datatype HttpReply = HttpReply(
    status: int, reason: string, url: string, text: string,
    json: Result<JValue, string>)

  /** `requests.post(url, json=payload, timeout=..., stream=...)`. */
  type Post = (string, Payload, int, bool) -> Result<HttpReply, string>

  /** The HTTPError `raise_for_status()` raises, if any. */
  function StatusError(reply: HttpReply): (e: Option<string>)
    ensures e.Some? <==> 400 <= reply.status < 600
    ensures e.Some? ==> StartsWith(e.value, IntToString(reply.status))
  {
    var kind := if reply.status < 500 then " Client Error: " else " Server Error: ";
    if 400 <= reply.status < 600 then
      Some(IntToString(reply.status) + kind + reply.reason + " for url: " + reply.url)
    else None
  }

  /** What `send_chat_history` returns: a reply dictionary, or the stream
      generator (here everything it yields). */
  datatype ClientResult = Answered(reply: ClientReply) | Lines(payloads: seq<string>)

  function ErrorReply(prefix: string, message: string): (r: ClientReply)
    ensures r.content == JStr(prefix + message) && r.reasoning == []
  {
    ClientReply(JStr(prefix + message), [])
  }

  /** `send_chat_history(chat_history, model, temperature, max_tokens,
      include_context, stream, n_last)`. A request exception (a refused
      connection, a timeout, an error status, a body that is not JSON)
      becomes a "Request error" reply and any other exception an
      "Unexpected error" reply; a reply always has an empty reasoning list. */
  method SendChatHistory(
    service: AgentService, history: seq<RawMessage>, model: string, temperature: real,
    maxTokens: int, includeContext: bool, stream: bool, nLast: int, post: Post)
    returns (r: ClientResult)
    ensures var sent := post(service.apiUrl,
                             PayloadFor(history, model, temperature, maxTokens, includeContext, stream, nLast),
                             service.timeout, stream);
      && (sent.Err? ==> r == Answered(ErrorReply(RequestErrorPrefix, sent.error)))
      && (sent.Ok? && StatusError(sent.value).Some? ==>
            r == Answered(ErrorReply(RequestErrorPrefix, StatusError(sent.value).value)))
      && (sent.Ok? && StatusError(sent.value).None? && stream ==>
            r == Lines(StreamPayloads(SplitLines(sent.value.text))))
      && (sent.Ok? && StatusError(sent.value).None? && !stream && sent.value.json.Err? ==>
            r == Answered(ErrorReply(RequestErrorPrefix, sent.value.json.error)))
      && (sent.Ok? && StatusError(sent.value).None? && !stream && sent.value.json.Ok? ==>
            r == Answered(match ParseBody(sent.value.json.value)
                          case Ok(content) => ClientReply(content, [])
                          case Err(message) => ErrorReply(UnexpectedErrorPrefix, message)))
    ensures r.Answered? ==> r.reply.reasoning == []
    ensures r.Lines? ==> stream
  {
    var payload := PayloadFor(history, model, temperature, maxTokens, includeContext, stream, nLast);
    var sent := post(service.apiUrl, payload, service.timeout, stream);
    if sent.Err? {
      return Answered(ErrorReply(RequestErrorPrefix, sent.error));
    }
    var reply := sent.value;
    var statusError := StatusError(reply);
    if statusError.Some? {
      return Answered(ErrorReply(RequestErrorPrefix, statusError.value));
    }
    if stream {
      var lines := SplitLines(reply.text);
      var payloads := ParseStream(lines);
      return Lines(payloads);
    }
    if reply.json.Err? {
      return Answered(ErrorReply(RequestErrorPrefix, reply.json.error));
    }
    var parsed := ParseBody(reply.json.value);
    if parsed.Err? {
      return Answered(ErrorReply(UnexpectedErrorPrefix, parsed.error));
    }
    return Answered(ClientReply(parsed.value, []));
  }
}

=== FILE: embedder.dfy ===
/** Embedding of document chunks (backend/src/rag/embedder.py).

    The embedding model is reached only through one call,
    `embedding_model.embed_documents(texts[, batch_size=...])`; the model's
    answer to that call is a parameter. */
module Embedder {
  import opened Base
  import opened Records

  /** Which LangChain `Embeddings` instance is in use. */
  datatype EmbeddingModel = OpenAIEmbeddings | CustomEmbeddings(name: string)

  /** A `DocumentEmbedder` instance; its fields are never reassigned. */
  datatype DocumentEmbedder = DocumentEmbedder(embeddingModel: EmbeddingModel, batchSize: Option<int>)

  /** One `embed_documents` call on the model: the texts, and the `batch_size`
      keyword when one is passed. */
  datatype EmbedCall = EmbedCall(model: EmbeddingModel, texts: seq<string>, batchSize: Option<int>)

  /** The model's answer to a call: its list of vectors, or the message of the
      exception it raises. */
  type EmbeddingBackend = EmbedCall -> Result<seq<Vector>, string>

  /** `DocumentEmbedder(embedding_model, batch_size)`: no model selects the
      default OpenAI embeddings. */
  function NewDocumentEmbedder(embeddingModel: Option<EmbeddingModel>, batchSize: Option<int>): (e: DocumentEmbedder)
    ensures e.embeddingModel == embeddingModel.GetOr(OpenAIEmbeddings)
    ensures e.batchSize == batchSize
  {
    DocumentEmbedder(if embeddingModel.None? then OpenAIEmbeddings else embeddingModel.value, batchSize)
  }

  function PageContents(documents: seq<Document>): (texts: seq<string>)
    ensures |texts| == |documents|
    ensures forall i :: 0 <= i < |documents| ==> texts[i] == documents[i].pageContent
  {
    seq(|documents|, i requires 0 <= i < |documents| => documents[i].pageContent)
  }

  /** The call `embed_documents` makes on the model, or `None` when it makes
      none. `batch_size` is passed only when it is truthy (present and not 0). */
  function EmbedCallFor(e: DocumentEmbedder, documents: seq<Document>): (c: Option<EmbedCall>)
    ensures c.None? <==> documents == []
    ensures c.Some? ==> c.value.model == e.embeddingModel
    ensures c.Some? ==> |c.value.texts| == |documents|
    ensures c.Some? ==> forall i :: 0 <= i < |documents| ==> c.value.texts[i] == documents[i].pageContent
    ensures c.Some? ==> (c.value.batchSize.Some? <==> e.batchSize.Some? && e.batchSize.value != 0)
    ensures c.Some? && c.value.batchSize.Some? ==> c.value.batchSize == e.batchSize
  {
    if documents == [] then None
    else
      var batch := if e.batchSize.Some? && e.batchSize.value != 0 then e.batchSize else None;
      Some(EmbedCall(e.embeddingModel, PageContents(documents), batch))
  }

  /** `DocumentEmbedder.embed_documents(documents)`: empty input gives `[]`;
      otherwise the model's answer is returned as it is, a list of the wrong
      length included (that only logs a warning), and a model exception is
      re-raised. */
  function EmbedDocuments(e: DocumentEmbedder, documents: seq<Document>, backend: EmbeddingBackend)
    : (r: Result<seq<Vector>, string>)
    ensures documents == [] ==> r == Ok([])
    ensures documents != [] ==> r == backend(EmbedCallFor(e, documents).value)
  {
    match EmbedCallFor(e, documents)
    case None => Ok([])
    case Some(call) => backend(call)
  }

  /** With no documents the model is never consulted: every backend gives the
      same answer. */
  lemma EmbedEmptyCallsNothing(e: DocumentEmbedder, b1: EmbeddingBackend, b2: EmbeddingBackend)
    ensures EmbedDocuments(e, [], b1) == EmbedDocuments(e, [], b2) == Ok([])
  {
  }

  /** The only thing the result depends on is the model's answer to the one
      call: two backends that agree on it give the same result, whatever
      they would answer otherwise. */
  lemma EmbedDependsOnlyOnTheCall(e: DocumentEmbedder, documents: seq<Document>, b1: EmbeddingBackend, b2: EmbeddingBackend)
    requires documents != []
    requires b1(EmbedCallFor(e, documents).value) == b2(EmbedCallFor(e, documents).value)
    ensures EmbedDocuments(e, documents, b1) == EmbedDocuments(e, documents, b2)
  {
  }

  /** A count mismatch is not an error: the model's list is passed through. */
  lemma EmbedMismatchPassesThrough(e: DocumentEmbedder, documents: seq<Document>, backend: EmbeddingBackend)
    requires documents != []
    requires backend(EmbedCallFor(e, documents).value).Ok?
    requires |backend(EmbedCallFor(e, documents).value).value| != |documents|
    ensures EmbedDocuments(e, documents, backend).Ok?
    ensures |EmbedDocuments(e, documents, backend).value| != |documents|
  {
  }

  /** `list(zip(xs, ys))` */
  function Zip<X, Y>(xs: seq<X>, ys: seq<Y>): (r: seq<(X, Y)>)
    ensures |r| == if |xs| <= |ys| then |xs| else |ys|
    ensures forall i :: 0 <= i < |r| ==> r[i] == (xs[i], ys[i])
    decreases |xs|
  {
    if xs == [] || ys == [] then [] else [(xs[0], ys[0])] + Zip(xs[1..], ys[1..])
  }

  /** `DocumentEmbedder.embed_with_metadata(documents)`: documents and vectors
      paired by position, as long as the shorter list. */
  function EmbedWithMetadata(e: DocumentEmbedder, documents: seq<Document>, backend: EmbeddingBackend)
    : (r: Result<seq<(Document, Vector)>, string>)
    ensures r.Ok? <==> EmbedDocuments(e, documents, backend).Ok?
    ensures r.Err? ==> r.error == EmbedDocuments(e, documents, backend).error
    ensures r.Ok? ==>
      var vectors := EmbedDocuments(e, documents, backend).value;
      && |r.value| == (if |documents| <= |vectors| then |documents| else |vectors|)
      && forall i :: 0 <= i < |r.value| ==> r.value[i] == (documents[i], vectors[i])
  {
    match EmbedDocuments(e, documents, backend)
    case Err(msg) => Err(msg)
    case Ok(vectors) => Ok(Zip(documents, vectors))
  }

  /** The module-level `embed_documents(documents, embedding_model, batch_size)`:
      a fresh embedder's `embed_documents`. */
  function EmbedDocumentsWith(
    documents: seq<Document>, embeddingModel: Option<EmbeddingModel>, batchSize: Option<int>,
    backend: EmbeddingBackend)
    : (r: Result<seq<Vector>, string>)
    ensures documents == [] ==> r == Ok([])
    ensures documents != [] ==>
      r == backend(EmbedCall(embeddingModel.GetOr(OpenAIEmbeddings), PageContents(documents),
                             if batchSize.Some? && batchSize.value != 0 then batchSize else None))
  {
    EmbedDocuments(NewDocumentEmbedder(embeddingModel, batchSize), documents, backend)
  }
}

=== FILE: json.dfy ===
/** JSON as the pipeline uses it: Python's json.dumps string quoting with its
    default ensure_ascii=True, and the decoded-value shape that the chat
    client inspects. */
module Json {
  import opened Base

  /** A decoded JSON value (what `response.json()` returns). */
  datatype JValue =
    | JNull
    | JBool(b: bool)
    | JInt(i: int)
    | JFloat(f: real)
    | JStr(s: string)
    | JArr(items: seq<JValue>)
    | JObj(fields: map<string, JValue>)

  /** Python truthiness of a decoded JSON value. */
  predicate Truthy(v: JValue) {
    match v
    case JNull => false
    case JBool(b) => b
    case JInt(i) => i != 0
    case JFloat(f) => f != 0.0
    case JStr(s) => s != ""
    case JArr(items) => items != []
    case JObj(fields) => fields != map[]
  }

  /** `type(v).__name__` of the Python object a JSON value decodes to. */
  function PyTypeName(v: JValue): string {
    match v
    case JNull => "NoneType"
    case JBool(_) => "bool"
    case JInt(_) => "int"
    case JFloat(_) => "float"
    case JStr(_) => "str"
    case JArr(_) => "list"
    case JObj(_) => "dict"
  }

  function HexDigit(d: nat): (c: char)
    requires d < 16
    ensures IsPrintableAscii(c)
  {
    if d < 10 then DigitChar(d) else ('a' as int + (d - 10)) as char
  }

  /** '{0:04x}'.format(n) */
  function Hex4(n: nat): (r: string)
    requires n < 0x1_0000
    ensures |r| == 4 && Printable(r)
  {
    [HexDigit(n / 0x1000), HexDigit(n / 0x100 % 16), HexDigit(n / 0x10 % 16), HexDigit(n % 16)]
  }

  /** The escape json.dumps writes for one code point with ensure_ascii=True:
      the two-character escapes for quote, backslash and the five named
      controls, the character itself for the rest of printable ASCII, one
      \uXXXX below U+10000 and a surrogate pair above. */
  function EscapeChar(c: char): (r: string)
    ensures Printable(r) && r != []
    ensures IsPrintableAscii(c) && c != '"' && c != '\\' ==> r == [c]
  {
    if c == '"' then "\\\""
    else if c == '\\' then "\\\\"
    else if c == '\n' then "\\n"
    else if c == '\r' then "\\r"
    else if c == '\t' then "\\t"
    else if c == '\U{8}' then "\\b"
    else if c == '\U{c}' then "\\f"
    else if IsPrintableAscii(c) then [c]
    else if c as int < 0x1_0000 then "\\u" + Hex4(c as int)
    else
      var n := c as int - 0x1_0000;
      "\\u" + Hex4(0xD800 + n / 0x400) + "\\u" + Hex4(0xDC00 + n % 0x400)
  }

  function Escape(s: string): (r: string)
    ensures Printable(r)
    ensures |r| >= |s|
    decreases |s|
  {
    if s == [] then [] else EscapeChar(s[0]) + Escape(s[1..])
  }

  /** A JSON string literal as json.dumps writes it. */
  function Quote(s: string): (r: string)
    ensures Printable(r)
    ensures |r| >= 2 && r[0] == '"' && r[|r| - 1] == '"'
  {
    "\"" + Escape(s) + "\""
  }

  /** Printable ASCII other than the quote and the backslash: the strings
      json.dumps writes between quotes as they are. */
  predicate Plain(s: string) {
    forall i :: 0 <= i < |s| ==> IsPrintableAscii(s[i]) && s[i] != '"' && s[i] != '\\'
  }

  /** Escaping never changes a plain string. */
  lemma {:induction false} EscapePlain(s: string)
    requires Plain(s)
    ensures Escape(s) == s
    decreases |s|
  {
    if s != [] {
      EscapePlain(s[1..]);
    }
  }

  /** A plain string between quotes; the keys and the constant values of the
      serialised dictionaries are written this way. */
  function QuotePlain(s: string): (r: string)
    requires Plain(s)
    ensures Printable(r)
    ensures |r| == |s| + 2 && r[0] == '"' && r[|r| - 1] == '"'
  {
    var r := "\"" + s + "\"";
    assert forall i :: 0 <= i < |r| ==> IsPrintableAscii(r[i]) by {
      forall i | 0 <= i < |r| ensures IsPrintableAscii(r[i]) {
        if 1 <= i <= |s| { assert r[i] == s[i - 1]; }
      }
    }
    r
  }

  /** Writing a plain string between quotes is what json.dumps does. */
  lemma QuotePlainIsQuote(s: string)
    requires Plain(s)
    ensures QuotePlain(s) == Quote(s)
  {
    EscapePlain(s);
  }

  /** One `"key": value` member, the value already serialised. */
  function Member(key: string, value: string): (r: string)
    requires Plain(key) && Printable(value)
    ensures Printable(r)
  {
    PrintableConcat(QuotePlain(key), ": ");
    PrintableConcat(QuotePlain(key) + ": ", value);
    QuotePlain(key) + ": " + value
  }

  /** Plain keys and printable serialised values. */
  predicate PrintableValues(members: seq<(string, string)>) {
    forall i :: 0 <= i < |members| ==> Plain(members[i].0) && Printable(members[i].1)
  }

  /** The members of an object, in insertion order, separated by ", ". */
  function Members(members: seq<(string, string)>): (r: string)
    requires PrintableValues(members)
    ensures Printable(r)
    decreases |members|
  {
    if members == [] then ""
    else
      var first := Member(members[0].0, members[0].1);
      if |members| == 1 then first
      else
        var rest := Members(members[1..]);
        PrintableConcat(first, ", ");
        PrintableConcat(first + ", ", rest);
        first + ", " + rest
  }

  /** `json.dumps` of a dictionary whose values serialise to the given texts:
      one line of printable ASCII between braces. */
  function DumpsObject(members: seq<(string, string)>): (r: string)
    requires PrintableValues(members)
    ensures Printable(r)
    ensures |r| >= 2 && r[0] == '{' && r[|r| - 1] == '}'
  {
    PrintableConcat("{", Members(members));
    PrintableConcat("{" + Members(members), "}");
    "{" + Members(members) + "}"
  }

  /** `json.dumps` of a one-element list. */
  function DumpsSingleton(item: string): (r: string)
    requires Printable(item)
    ensures Printable(r)
  {
    PrintableConcat("[", item);
    PrintableConcat("[" + item, "]");
    "[" + item + "]"
  }
}

=== FILE: loader.dfy ===
/** Document ingestion for the RAG pipeline (backend/src/rag/loader.py).

    The filesystem is an input: a directory is either missing (or not a
    directory) or the list of entries `rglob("*")` walks, each carrying what
    reading it as text, parsing it as a PDF and stat-ing it would give. The
    LangChain text splitter is a parameter. */
module Loader {
  import opened Base
  import opened Records

  /** One path yielded by the recursive walk. A `None` stands for a call that
      raises: reading as UTF-8 text, opening as a PDF (including PyPDF2 not
      being installed), or stat(). `pdfPages` holds each page's
      extract_text(), itself `None` for a page without text. */
  datatype FileEntry = FileEntry(
    resolved: string,
    name: string,
    text: Option<string>,
    pdfPages: Option<seq<Option<string>>>,
    size: Option<nat>)

  datatype Directory = Missing | Dir(entries: seq<FileEntry>)

  datatype LoadError =
    | NotADirectory(directory: string)    // "Directory ... does not exist or is not a directory."
    | NoValidDocuments(directory: string) // "No valid documents found in directory: ..."
    | UnsupportedFileType(ext: string)    // "Unsupported file type: ..."
    | ReadFailed(path: string)            // the reader's own exception, re-raised

  /** `split(document, chunk_size, chunk_overlap)` is what
      `RecursiveCharacterTextSplitter(...).split_documents([document])` returns. */
  type Splitter = (Document, int, int) -> seq<Document>

  const DefaultExtensions: seq<string> := [".txt", ".md", ".pdf"]
  const DefaultChunkSize := 1000
  const DefaultChunkOverlap := 200

  /** `Path(name).suffix`: from the last dot, unless that dot is the first or
      the last character of the name. */
  function Suffix(name: string): (r: string)
    ensures r != [] ==> r[0] == '.' && EndsWith(name, r) && |r| >= 2 && |r| < |name|
    ensures r != [] ==> forall j :: 0 < j < |r| ==> r[j] != '.'
  {
    var i := RFind(name, '.');
    if 0 < i < |name| - 1 then name[i..] else ""
  }

  /** `extensions or [".txt", ".md", ".pdf"]` */
  function AllowedExtensions(extensions: Option<seq<string>>): (r: seq<string>)
    ensures extensions.None? || extensions.value == [] ==> r == DefaultExtensions
    ensures extensions.Some? && extensions.value != [] ==> r == extensions.value
  {
    if extensions.Some? && extensions.value != [] then extensions.value else DefaultExtensions
  }

  /** The text of a PDF: its pages' texts joined by newlines, a page without
      text counting as the empty string. */
  function PdfText(pages: seq<Option<string>>): (r: string) {
    Join("\n", PageTexts(pages))
  }

  function PageTexts(pages: seq<Option<string>>): (r: seq<string>)
    ensures |r| == |pages|
    ensures forall i :: 0 <= i < |pages| ==> r[i] == pages[i].GetOr("")
  {
    seq(|pages|, i requires 0 <= i < |pages| => pages[i].GetOr(""))
  }

  /** Splitting a joined PDF text at its newlines gives the pages back, as
      long as no page text holds a newline itself. */
  function SplitNewlines(s: string): (r: seq<string>)
    ensures |r| >= 1
    decreases |s|
  {
    var k := FirstNewline(s);
    if k == |s| then [s] else [s[..k]] + SplitNewlines(s[k + 1..])
  }

  function FirstNewline(s: string): (k: nat)
    ensures k <= |s| && (k < |s| ==> s[k] == '\n')
    ensures forall j :: 0 <= j < k ==> s[j] != '\n'
    decreases |s|
  {
    if s == [] then 0 else if s[0] == '\n' then 0 else 1 + FirstNewline(s[1..])
  }

  lemma {:induction false} FirstNewlineOf(line: string, rest: string)
    requires '\n' !in line
    ensures FirstNewline(line + "\n" + rest) == |line|
  {
    var s := line + "\n" + rest;
    assert forall j :: 0 <= j < |line| ==> s[j] == line[j];
    assert s[|line|] == '\n';
  }

  lemma {:induction false} PdfPagesRecoverable(pages: seq<Option<string>>)
    requires pages != []
    requires forall i :: 0 <= i < |pages| ==> '\n' !in pages[i].GetOr("")
    ensures SplitNewlines(PdfText(pages)) == PageTexts(pages)
    decreases |pages|
  {
    var texts := PageTexts(pages);
    if |pages| == 1 {
      assert forall j :: 0 <= j < |texts[0]| ==> texts[0][j] != '\n';
    } else {
      var tail := Join("\n", texts[1..]);
      assert PdfText(pages) == texts[0] + "\n" + tail;
      FirstNewlineOf(texts[0], tail);
      var s := texts[0] + "\n" + tail;
      assert s[..|texts[0]|] == texts[0];
      assert s[|texts[0]| + 1..] == tail;
      assert PageTexts(pages[1..]) == texts[1..];
      PdfPagesRecoverable(pages[1..]);
    }
  }

  /** What `load_pdf_file` / `load_text_file` return for one entry, chosen by
      the lower-cased suffix. */
  function ReadContent(e: FileEntry, ext: string): (r: Result<string, LoadError>)
    ensures ext == ".pdf" ==> (r.Ok? <==> e.pdfPages.Some?)
    ensures ext != ".pdf" ==> (r.Ok? <==> e.text.Some?)
  {
    if ext == ".pdf" then
      if e.pdfPages.Some? then Ok(PdfText(e.pdfPages.value)) else Err(ReadFailed(e.resolved))
    else
      if e.text.Some? then Ok(e.text.value) else Err(ReadFailed(e.resolved))
  }

  /** The metadata `load_documents_from_dir` and `load_single_document` attach. */
  function MetadataOf(e: FileEntry, size: nat): (m: Metadata)
    ensures m.source == e.resolved && m.filename == e.name && m.size == size
    ensures m.extension == Lower(Suffix(e.name))
  {
    Metadata(e.resolved, e.name, Lower(Suffix(e.name)), size)
  }

  /** The document one walk entry contributes to `load_documents_from_dir`, or
      `None` when the entry is skipped: a suffix not allowed, a read that
      raises, whitespace-only content, or a stat that raises. */
  function LoadEntry(e: FileEntry, allowed: seq<string>): (r: Option<Document>)
    ensures r.Some? <==>
      && Lower(Suffix(e.name)) in allowed
      && ReadContent(e, Lower(Suffix(e.name))).Ok?
      && !IsBlank(ReadContent(e, Lower(Suffix(e.name))).value)
      && e.size.Some?
    ensures r.Some? ==>
      && r.value.pageContent == ReadContent(e, Lower(Suffix(e.name))).value
      && r.value.metadata == MetadataOf(e, e.size.value)
  {
    var ext := Lower(Suffix(e.name));
    if ext !in allowed then None
    else
      match ReadContent(e, ext)
      case Err(_) => None
      case Ok(content) =>
        StripEmptyIffBlank(content);
        if Strip(content) == [] then None
        else if e.size.None? then None
        else Some(Document(content, MetadataOf(e, e.size.value)))
  }

  /** The documents the walk keeps, in walk order. */
  function KeptDocuments(entries: seq<FileEntry>, allowed: seq<string>): (r: seq<Document>)
    ensures |r| <= |entries|
  {
    FilterMap((e: FileEntry) => LoadEntry(e, allowed), entries)
  }

  /** Scanning two parts of the walk one after the other keeps the documents
      of the first, then those of the second. */
  lemma KeptDocumentsAppend(a: seq<FileEntry>, b: seq<FileEntry>, allowed: seq<string>)
    ensures KeptDocuments(a + b, allowed) == KeptDocuments(a, allowed) + KeptDocuments(b, allowed)
  {
    FilterMapAppend((e: FileEntry) => LoadEntry(e, allowed), a, b);
  }

  /** One more entry of the walk adds the document it loads, if any. */
  lemma KeptDocumentsStep(entries: seq<FileEntry>, i: nat, allowed: seq<string>)
    requires i < |entries|
    ensures KeptDocuments(entries[..i + 1], allowed)
         == KeptDocuments(entries[..i], allowed) + LoadEntry(entries[i], allowed).ToSeq()
  {
    FilterMapStep((e: FileEntry) => LoadEntry(e, allowed), entries, i);
  }

  /** Every kept document has an allowed extension and non-blank content. */
  lemma KeptDocumentsAreValid(entries: seq<FileEntry>, allowed: seq<string>)
    ensures forall d :: d in KeptDocuments(entries, allowed) ==>
      d.metadata.extension in allowed && !IsBlank(d.pageContent)
  {
    var load := (e: FileEntry) => LoadEntry(e, allowed);
    forall d | d in KeptDocuments(entries, allowed)
      ensures d.metadata.extension in allowed && !IsBlank(d.pageContent)
    {
      FilterMapFrom(load, entries, d);
    }
  }

  /** `load_documents_from_dir(directory, extensions)`. */
  method LoadDocumentsFromDir(dirName: string, directory: Directory, extensions: Option<seq<string>>)
    returns (r: Result<seq<Document>, LoadError>)
    ensures directory.Missing? ==> r == Err(NotADirectory(dirName))
    ensures directory.Dir? ==>
      var kept := KeptDocuments(directory.entries, AllowedExtensions(extensions));
      r == if kept == [] then Err(NoValidDocuments(dirName)) else Ok(kept)
  {
    if directory.Missing? {
      return Err(NotADirectory(dirName));
    }
    var allowed := AllowedExtensions(extensions);
    var entries := directory.entries;
    var documents: seq<Document> := [];
    var i := 0;
    while i < |entries|
      invariant 0 <= i <= |entries|
      invariant documents == KeptDocuments(entries[..i], allowed)
    {
      KeptDocumentsStep(entries, i, allowed);
      var document := LoadEntry(entries[i], allowed);
      if document.Some? {
        documents := documents + [document.value];
      }
      i := i + 1;
    }
    assert entries[..i] == entries;
    if documents == [] {
      return Err(NoValidDocuments(dirName));
    }
    return Ok(documents);
  }

  /** The splitter's chunks of every document, document after document. */
  function Chunked(documents: seq<Document>, chunkSize: int, chunkOverlap: int, split: Splitter): seq<Document>
    decreases |documents|
  {
    if documents == [] then []
    else
      Chunked(documents[..|documents| - 1], chunkSize, chunkOverlap, split)
        + split(documents[|documents| - 1], chunkSize, chunkOverlap)
  }

  lemma {:induction false} ChunkedAppend(a: seq<Document>, b: seq<Document>, chunkSize: int, chunkOverlap: int, split: Splitter)
    ensures Chunked(a + b, chunkSize, chunkOverlap, split)
         == Chunked(a, chunkSize, chunkOverlap, split) + Chunked(b, chunkSize, chunkOverlap, split)
    decreases |b|
  {
    if b == [] {
      assert a + b == a;
    } else {
      assert (a + b)[..|a + b| - 1] == a + b[..|b| - 1];
      ChunkedAppend(a, b[..|b| - 1], chunkSize, chunkOverlap, split);
    }
  }

  /** `chunk_documents(documents, chunk_size, chunk_overlap)`. */
  method ChunkDocuments(documents: seq<Document>, chunkSize: int, chunkOverlap: int, split: Splitter)
    returns (chunks: seq<Document>)
    ensures chunks == Chunked(documents, chunkSize, chunkOverlap, split)
  {
    chunks := [];
    var i := 0;
    while i < |documents|
      invariant 0 <= i <= |documents|
      invariant chunks == Chunked(documents[..i], chunkSize, chunkOverlap, split)
    {
      assert documents[..i + 1][..i] == documents[..i];
      chunks := chunks + split(documents[i], chunkSize, chunkOverlap);
      i := i + 1;
    }
    assert documents[..i] == documents;
  }

  /** `load_and_chunk_documents(source_dir, extensions, chunk_size, chunk_overlap)`:
      loading errors propagate, otherwise the loaded documents are chunked. */
  method LoadAndChunkDocuments(
    dirName: string, directory: Directory, extensions: Option<seq<string>>,
    chunkSize: int, chunkOverlap: int, split: Splitter)
    returns (r: Result<seq<Document>, LoadError>)
    ensures directory.Missing? ==> r == Err(NotADirectory(dirName))
    ensures directory.Dir? ==>
      var kept := KeptDocuments(directory.entries, AllowedExtensions(extensions));
      r == if kept == [] then Err(NoValidDocuments(dirName))
           else Ok(Chunked(kept, chunkSize, chunkOverlap, split))
  {
    var loaded := LoadDocumentsFromDir(dirName, directory, extensions);
    if loaded.Err? {
      return Err(loaded.error);
    }
    var chunks := ChunkDocuments(loaded.value, chunkSize, chunkOverlap, split);
    return Ok(chunks);
  }

  /** `load_single_document(file_path)`: dispatch on the lower-cased suffix,
      with no blank-content check. */
  function LoadSingleDocument(e: FileEntry): (r: Result<Document, LoadError>)
    ensures Lower(Suffix(e.name)) !in [".pdf", ".txt", ".md"] ==> r == Err(UnsupportedFileType(Lower(Suffix(e.name))))
    ensures Lower(Suffix(e.name)) == ".pdf" && e.pdfPages.Some? && e.size.Some? ==>
      r == Ok(Document(PdfText(e.pdfPages.value), MetadataOf(e, e.size.value)))
    ensures Lower(Suffix(e.name)) in [".txt", ".md"] && e.text.Some? && e.size.Some? ==>
      r == Ok(Document(e.text.value, MetadataOf(e, e.size.value)))
    ensures r.Ok? <==>
      && Lower(Suffix(e.name)) in [".pdf", ".txt", ".md"]
      && ReadContent(e, Lower(Suffix(e.name))).Ok?
      && e.size.Some?
    ensures Lower(Suffix(e.name)) in [".pdf", ".txt", ".md"] && ReadContent(e, Lower(Suffix(e.name))).Err? ==>
      r == Err(ReadContent(e, Lower(Suffix(e.name))).error)
    ensures Lower(Suffix(e.name)) in [".pdf", ".txt", ".md"] && ReadContent(e, Lower(Suffix(e.name))).Ok?
            && e.size.None? ==>
      r == Err(ReadFailed(e.resolved))
  {
    var ext := Lower(Suffix(e.name));
    if ext != ".pdf" && ext != ".txt" && ext != ".md" then Err(UnsupportedFileType(ext))
    else
      match ReadContent(e, ext)
      case Err(err) => Err(err)
      case Ok(content) =>
        if e.size.None? then Err(ReadFailed(e.resolved))
        else Ok(Document(content, MetadataOf(e, e.size.value)))
  }

  /** Unlike the directory scan, a whitespace-only text file loads. */
  lemma SingleDocumentKeepsBlank(e: FileEntry)
    requires Lower(Suffix(e.name)) == ".txt" && e.text == Some("  \n") && e.size.Some?
    ensures LoadSingleDocument(e).Ok? && LoadSingleDocument(e).value.pageContent == "  \n"
    ensures LoadEntry(e, DefaultExtensions).None?
  {
    assert IsSpace("  \n"[2]);
  }
}

=== FILE: memory.dfy ===
/** Conversation memory (backend/src/agent/memory.py): one chat-history list
    that is replaced wholesale or appended to.

    The history is a Dafny sequence, a value: the copies the source takes on
    the way in (`messages.copy()`) and on the way out (`chat_history.copy()`)
    are what make the Python list behave like one, so a caller's later
    mutation of either list cannot reach the other. */
module Memory {
  import opened Base
  import opened Records

  /** The message `update_agent_response` records. */
  function AssistantMessage(response: string): (m: RawMessage)
    ensures m.role == Some("assistant") && m.content == Some(response)
  {
    RawMessage(Some("assistant"), Some(response))
  }

  class AgentMemory {
    var chatHistory: seq<RawMessage>

    constructor ()
      ensures chatHistory == []
    {
      chatHistory := [];
    }

    /** `update(messages)`: the history becomes the given messages. */
    method Update(messages: seq<RawMessage>)
      modifies this
      ensures chatHistory == messages
    {
      chatHistory := messages;
    }

    /** `update_agent_response(response)`: one assistant message is appended
        and the earlier entries stay as they were. */
    method UpdateAgentResponse(response: string)
      modifies this
      ensures chatHistory == old(chatHistory) + [AssistantMessage(response)]
      ensures |chatHistory| == |old(chatHistory)| + 1
      ensures chatHistory[..|old(chatHistory)|] == old(chatHistory)
    {
      chatHistory := chatHistory + [AssistantMessage(response)];
    }

    /** `retrieve()`: the current history; nothing changes. */
    method Retrieve() returns (history: seq<RawMessage>)
      ensures history == chatHistory
    {
      history := chatHistory;
    }
  }

  /** One turn as a caller drives it: replace the history, record the reply,
      read it back. */
  method RecordTurn(memory: AgentMemory, messages: seq<RawMessage>, response: string)
    returns (history: seq<RawMessage>)
    modifies memory
    ensures history == messages + [AssistantMessage(response)]
    ensures memory.chatHistory == history
  {
    memory.Update(messages);
    memory.UpdateAgentResponse(response);
    history := memory.Retrieve();
  }
}

=== FILE: prompt_loader.dfy ===
/** Prompt files (backend/src/utils/prompt_loader.py): path construction for
    one prompt and the listing of the `.txt` prompts in the base directory.
    Reading a file and decoding JSON are parameters; the directory listing is
    an input. */
module Prompts {
  import opened Base
  import opened Json

  /** A `PromptLoader`; its base path is never reassigned. */
  datatype PromptLoader = PromptLoader(basePath: string)

  const DefaultBasePath := "prompts"

  /** `PromptLoader()` with the default base path. */
  function DefaultPromptLoader(): (l: PromptLoader)
    ensures l.basePath == "prompts"
  {
    PromptLoader(DefaultBasePath)
  }

  /** `os.path.join(a, b)` on POSIX: an absolute `b` replaces `a`; otherwise
      a separator is inserted unless `a` is empty or already ends in one. */
  function PathJoin(a: string, b: string): (r: string)
    ensures StartsWith(b, "/") ==> r == b
    ensures !StartsWith(b, "/") ==> EndsWith(r, b) && StartsWith(r, a)
    ensures !StartsWith(b, "/") && a != "" && !EndsWith(a, "/") ==> r == a + "/" + b
    ensures !StartsWith(b, "/") && (a == "" || EndsWith(a, "/")) ==> r == a + b
  {
    if StartsWith(b, "/") then b
    else if a == "" || EndsWith(a, "/") then a + b
    else a + "/" + b
  }

  function ExtensionFor(isJson: bool): (ext: string)
    ensures isJson ==> ext == ".json"
    ensures !isJson ==> ext == ".txt"
  {
    "." + (if isJson then "json" else "txt")
  }

  /** The file `load_prompt(prompt_name, is_json)` opens. */
  function PromptPath(loader: PromptLoader, promptName: string, isJson: bool): (p: string)
    ensures EndsWith(p, promptName + ExtensionFor(isJson))
    ensures !StartsWith(promptName, "/") ==> StartsWith(p, loader.basePath)
  {
    assert StartsWith(promptName, "/") ==> StartsWith(promptName + ExtensionFor(isJson), "/");
    assert StartsWith(promptName + ExtensionFor(isJson), "/") ==> StartsWith(promptName, "/") || promptName == "" by {
      if promptName != "" {
        assert (promptName + ExtensionFor(isJson))[0] == promptName[0];
      }
    }
    PathJoin(loader.basePath, promptName + ExtensionFor(isJson))
  }

  datatype Prompt = TextPrompt(text: string) | JsonPrompt(value: JValue)

  /** `load_prompt(prompt_name, is_json)`: the file's text, or its JSON
      decoding; an open, read or decode error propagates. */
  function LoadPrompt(
    loader: PromptLoader, promptName: string, isJson: bool,
    readFile: string -> Result<string, string>, decodeJson: string -> Result<JValue, string>)
    : (r: Result<Prompt, string>)
    ensures readFile(PromptPath(loader, promptName, isJson)).Err? ==>
      r == Err(readFile(PromptPath(loader, promptName, isJson)).error)
    ensures readFile(PromptPath(loader, promptName, false)).Ok? && !isJson ==>
      r == Ok(TextPrompt(readFile(PromptPath(loader, promptName, false)).value))
    ensures readFile(PromptPath(loader, promptName, true)).Ok? && isJson ==>
      r == match decodeJson(readFile(PromptPath(loader, promptName, true)).value)
           case Ok(v) => Ok(JsonPrompt(v))
           case Err(e) => Err(e)
  {
    match readFile(PromptPath(loader, promptName, isJson))
    case Err(msg) => Err(msg)
    case Ok(text) =>
      if !isJson then Ok(TextPrompt(text))
      else
        match decodeJson(text)
        case Err(msg) => Err(msg)
        case Ok(v) => Ok(JsonPrompt(v))
  }

  predicate AllDots(s: string)
    decreases |s|
  {
    s == [] || (s[0] == '.' && AllDots(s[1..]))
  }

  /** `os.path.splitext(p)[0]` on POSIX: the extension starts at the last dot
      of the last path component, unless only dots precede that dot within
      the component (a hidden file such as `.txt` has no extension). */
  function SplitExtRoot(p: string): (root: string)
  {
    var sep := RFind(p, '/');
    var dot := RFind(p, '.');
    if dot > sep && !AllDots(p[sep + 1..dot]) then p[..dot] else p
  }

  /** For a listed `.txt` file name only the final `.txt` is removed, unless
      the name is nothing but dots before it. */
  lemma {:induction false} TxtRoot(name: string)
    requires EndsWith(name, ".txt") && '/' !in name
    ensures !AllDots(name[..|name| - 4]) ==> SplitExtRoot(name) == name[..|name| - 4]
    ensures AllDots(name[..|name| - 4]) ==> SplitExtRoot(name) == name
  {
    var n := |name|;
    assert name[n - 4..] == ".txt";
    assert name[n - 4] == '.' && name[n - 3] == 't' && name[n - 2] == 'x' && name[n - 1] == 't';
    var sep := RFind(name, '/');
    assert forall k :: 0 <= k < n ==> name[k] != '/';
    assert sep == -1;
    var dot := RFind(name, '.');
    assert dot == n - 4;
    assert name[sep + 1..dot] == name[..n - 4];
  }

  /** What one directory entry contributes to `list_prompts()`. */
  function ListedName(name: string): (r: Option<string>)
    ensures r.Some? <==> EndsWith(name, ".txt")
  {
    if EndsWith(name, ".txt") then Some(SplitExtRoot(name)) else None
  }

  /** The names listed for the entries of a directory, in listing order. */
  function PromptNames(names: seq<string>): (r: seq<string>)
    ensures |r| <= |names|
  {
    FilterMap(ListedName, names)
  }

  /** `list_prompts()`: nothing when the base path is not a directory;
      otherwise the `.txt` entries, in listing order, each without its
      extension. */
  function ListPrompts(listing: Option<seq<string>>): (r: seq<string>)
    ensures listing.None? ==> r == []
    ensures listing.Some? ==> |r| <= |listing.value|
  {
    if listing.None? then [] else PromptNames(listing.value)
  }

  lemma PromptNamesAppend(a: seq<string>, b: seq<string>)
    ensures PromptNames(a + b) == PromptNames(a) + PromptNames(b)
  {
    FilterMapAppend(ListedName, a, b);
  }

  lemma PromptNamesOne(name: string)
    ensures PromptNames([name]) == ListedName(name).ToSeq()
  {
    assert [name][..0] == [];
  }

  /** A listed name opens, as a text prompt, the file it was listed from. */
  lemma ListedNameLoadsBack(loader: PromptLoader, name: string)
    requires '/' !in name && EndsWith(name, ".txt") && !AllDots(name[..|name| - 4])
    ensures PromptPath(loader, ListedName(name).value, false) == PathJoin(loader.basePath, name)
  {
    TxtRoot(name);
    assert name[..|name| - 4] + ".txt" == name;
  }

  /** Every name `list_prompts` returns, handed back to `load_prompt` as a
      text prompt, opens the very file it was listed from, except for files
      named only by dots and `.txt` (hidden files such as `.notes.txt` load
      back too). */
  lemma ListedPromptsLoadBack(loader: PromptLoader, names: seq<string>)
    requires forall i :: 0 <= i < |names| ==> '/' !in names[i]
    requires forall i :: 0 <= i < |names| && EndsWith(names[i], ".txt") ==> !AllDots(names[i][..|names[i]| - 4])
    ensures forall p :: p in PromptNames(names) ==>
      exists i :: 0 <= i < |names| && PromptPath(loader, p, false) == PathJoin(loader.basePath, names[i])
  {
    forall p | p in PromptNames(names)
      ensures exists i :: 0 <= i < |names| && PromptPath(loader, p, false) == PathJoin(loader.basePath, names[i])
    {
      FilterMapFrom(ListedName, names, p);
      var i :| 0 <= i < |names| && ListedName(names[i]) == Some(p);
      ListedNameLoadsBack(loader, names[i]);
    }
  }

  lemma HiddenTxtListed()
    ensures ListedName(".txt") == Some(".txt")
  {
    TxtRoot(".txt");
    assert ".txt"[..0] == [];
  }

  lemma DottedTxtListed()
    ensures ListedName("a.b.txt") == Some("a.b")
  {
    TxtRoot("a.b.txt");
    assert "a.b.txt"[..3] == "a.b";
    assert !AllDots("a.b");
  }

  lemma MarkdownNotListed()
    ensures ListedName("notes.md") == None
  {
    assert "notes.md"[8 - 4..] != ".txt";
  }

  /** A hidden file named `.txt` is listed under its full name. */
  lemma HiddenTxtListsWhole()
    ensures ListPrompts(Some([".txt", "a.b.txt", "notes.md"])) == [".txt", "a.b"]
  {
    HiddenTxtListed();
    DottedTxtListed();
    MarkdownNotListed();
    PromptNamesOne(".txt");
    PromptNamesOne("a.b.txt");
    PromptNamesOne("notes.md");
    PromptNamesAppend([".txt"], ["a.b.txt"]);
    PromptNamesAppend([".txt", "a.b.txt"], ["notes.md"]);
    assert [".txt"] + ["a.b.txt"] == [".txt", "a.b.txt"];
    assert [".txt", "a.b.txt"] + ["notes.md"] == [".txt", "a.b.txt", "notes.md"];
  }
}

=== FILE: records.dfy ===
/** The values that travel between the components: chat messages in their
    loose (dictionary) and normalised forms, and LangChain documents with the
    loader's metadata. */
module Records {
  import opened Base

  /** A message dictionary as received: either key may be absent. */
  datatype RawMessage = RawMessage(role: Option<string>, content: Option<string>)

  /** A `{"role": ..., "content": ...}` dictionary with both keys present. */
  datatype ChatMessage = ChatMessage(role: string, content: string)

  /** The metadata the directory loader attaches to every document. */
  datatype Metadata = Metadata(source: string, filename: string, extension: string, size: nat)

  /** A LangChain `Document`. */
  datatype Document = Document(pageContent: string, metadata: Metadata)

  /** An embedding vector; its entries are never computed on here. */
  type Vector = seq<real>

  /** The dictionary form of a normalised message, as `m.dict()` yields it. */
  function AsRaw(m: ChatMessage): (r: RawMessage)
    ensures r.role == Some(m.role) && r.content == Some(m.content)
  {
    RawMessage(Some(m.role), Some(m.content))
  }
}

=== FILE: retriever.dfy ===
/** The FAISS-backed retriever (backend/src/rag/retriever.py).

    FAISS itself is reached through two parameters: `build` answers
    `FAISS.from_documents` / `FAISS.from_embeddings`, `search` answers
    `similarity_search`. Saved indexes live on an `IndexDisk`, a map from
    path to what `save_local` left there. */
module Retrieval {
  import opened Base
  import opened Records
  import opened Embedder

  /** A FAISS vector store: the documents it indexes with their vectors. */
  datatype VectorStore = VectorStore(entries: seq<(Document, Vector)>)

  /** The two ways the constructor asks FAISS for a new store. */
  datatype BuildRequest =
    | FromDocuments(documents: seq<Document>, embedding: EmbeddingModel)
    | FromEmbeddings(texts: seq<string>, embedding: EmbeddingModel, metadatas: seq<Metadata>,
                     embeddings: Option<seq<Vector>>)

  type FaissBuild = BuildRequest -> Result<VectorStore, string>

  /** `similarity_search(query_text, k)` on a store, or the message it raises with. */
  type SimilaritySearch = (VectorStore, string, int) -> Result<seq<Document>, string>

  /** What a path on disk holds: an index `save_local` wrote, or something
      `load_local` cannot read. A path absent from the map does not exist. */
  datatype DiskEntry = SavedIndex(store: VectorStore) | Unreadable

  /** The part of the filesystem that holds saved indexes. */
  class IndexDisk {
    var files: map<string, DiskEntry>

    constructor (files: map<string, DiskEntry>)
      ensures this.files == files
    {
      this.files := files;
    }
  }

  datatype RetrieverError =
    | LoadFailed(path: string)       // load_local raised; re-raised
    | BuildFailed(message: string)   // from_documents / from_embeddings raised; re-raised
    | NoSource                       // "Either documents or faiss_path must be provided."

  const NoSourceMessage := "Either documents or faiss_path must be provided."

  /** `Path(faiss_path) if faiss_path else None`: the empty string counts as no path. */
  function FaissPathOf(faissPath: Option<string>): (p: Option<string>)
    ensures p.Some? <==> faissPath.Some? && faissPath.value != ""
    ensures p.Some? ==> p == faissPath
  {
    if faissPath.Some? && faissPath.value != "" then faissPath else None
  }

  /** `FAISS.load_local(path, embedding_model)` against the disk. */
  function LoadLocal(files: map<string, DiskEntry>, path: string): (r: Result<VectorStore, RetrieverError>)
    ensures r.Ok? <==> path in files && files[path].SavedIndex?
    ensures r.Ok? ==> r.value == files[path].store
    ensures r.Err? ==> r.error == LoadFailed(path)
  {
    if path in files && files[path].SavedIndex? then Ok(files[path].store) else Err(LoadFailed(path))
  }

  /** A store written by `save_local` loads back unchanged from the same path. */
  lemma LoadAfterSave(files: map<string, DiskEntry>, path: string, store: VectorStore)
    ensures LoadLocal(files[path := SavedIndex(store)], path) == Ok(store)
  {
  }

  function Metadatas(documents: seq<Document>): (m: seq<Metadata>)
    ensures |m| == |documents|
    ensures forall i :: 0 <= i < |documents| ==> m[i] == documents[i].metadata
  {
    seq(|documents|, i requires 0 <= i < |documents| => documents[i].metadata)
  }

  /** The store the constructor asks FAISS to build. As written, supplied
      vectors select `from_documents`, which embeds the documents again and
      ignores them, and their absence selects `from_embeddings` with
      `embeddings=None`. */
  function BuildRequestFor(model: EmbeddingModel, documents: seq<Document>, embeddings: Option<seq<Vector>>)
    : (req: BuildRequest)
    ensures embeddings.Some? <==> req.FromDocuments?
    ensures req.FromDocuments? ==> req.documents == documents && req.embedding == model
    ensures req.FromEmbeddings? ==>
      && req.texts == PageContents(documents) && req.metadatas == Metadatas(documents)
      && req.embedding == model && req.embeddings == None
  {
    if embeddings.Some? then FromDocuments(documents, model)
    else FromEmbeddings(PageContents(documents), model, Metadatas(documents), embeddings)
  }

  /** What the constructor ends up with: the store, and the path it was saved
      to after a build. */
  datatype Opened = Opened(store: VectorStore, savedTo: Option<string>)

  /** The constructor's three branches: an existing `faiss_path` is loaded
      (documents ignored, a load failure re-raised); otherwise documents are
      built into a store (a build failure re-raised) that is then saved to
      `faiss_path` if one was given; with neither, ValueError. */
  function OpenStore(
    model: EmbeddingModel, documents: Option<seq<Document>>, embeddings: Option<seq<Vector>>,
    faissPath: Option<string>, files: map<string, DiskEntry>, build: FaissBuild)
    : (r: Result<Opened, RetrieverError>)
    ensures FaissPathOf(faissPath).Some? && faissPath.value in files ==>
      r == match LoadLocal(files, faissPath.value)
           case Ok(s) => Ok(Opened(s, None))
           case Err(e) => Err(e)
    ensures r == Err(NoSource) <==>
      documents.None? && !(FaissPathOf(faissPath).Some? && faissPath.value in files)
    ensures r.Ok? && r.value.savedTo.Some? ==>
      && documents.Some? && r.value.savedTo == FaissPathOf(faissPath)
      && build(BuildRequestFor(model, documents.value, embeddings)) == Ok(r.value.store)
    ensures documents.Some? && !(FaissPathOf(faissPath).Some? && faissPath.value in files) ==>
      r == match build(BuildRequestFor(model, documents.value, embeddings))
           case Err(m) => Err(BuildFailed(m))
           case Ok(s) => Ok(Opened(s, FaissPathOf(faissPath)))
  {
    var path := FaissPathOf(faissPath);
    if path.Some? && path.value in files then
      match LoadLocal(files, path.value)
      case Ok(s) => Ok(Opened(s, None))
      case Err(e) => Err(e)
    else if documents.Some? then
      match build(BuildRequestFor(model, documents.value, embeddings))
      case Err(msg) => Err(BuildFailed(msg))
      case Ok(s) => Ok(Opened(s, path))
    else Err(NoSource)
  }

  /** An existing index on disk takes precedence: documents and vectors are
      then irrelevant. */
  lemma ExistingIndexWins(
    model: EmbeddingModel, d1: Option<seq<Document>>, e1: Option<seq<Vector>>,
    d2: Option<seq<Document>>, e2: Option<seq<Vector>>,
    faissPath: Option<string>, files: map<string, DiskEntry>, build: FaissBuild)
    requires FaissPathOf(faissPath).Some? && faissPath.value in files
    ensures OpenStore(model, d1, e1, faissPath, files, build) == OpenStore(model, d2, e2, faissPath, files, build)
  {
  }

  class Retriever {
    const embeddingModel: EmbeddingModel
    const faissPath: Option<string>
    var vectorstore: Option<VectorStore>

    constructor FromStore(embeddingModel: EmbeddingModel, faissPath: Option<string>, store: VectorStore)
      ensures this.embeddingModel == embeddingModel && this.faissPath == faissPath
      ensures vectorstore == Some(store)
    {
      this.embeddingModel := embeddingModel;
      this.faissPath := faissPath;
      vectorstore := Some(store);
    }

    /** `Retriever(embedding_model, documents, embeddings, faiss_path)`; the
        object exists only when the constructor does not raise. */
    static method Open(
      model: EmbeddingModel, documents: Option<seq<Document>>, embeddings: Option<seq<Vector>>,
      faissPath: Option<string>, disk: IndexDisk, build: FaissBuild)
      returns (r: Result<Retriever, RetrieverError>)
      modifies disk
      ensures var o := OpenStore(model, documents, embeddings, faissPath, old(disk.files), build);
        && (r.Ok? <==> o.Ok?)
        && (r.Err? ==> r.error == o.error)
        && (r.Ok? ==> fresh(r.value) && r.value.vectorstore == Some(o.value.store)
                      && r.value.embeddingModel == model && r.value.faissPath == FaissPathOf(faissPath))
        && disk.files == if o.Ok? && o.value.savedTo.Some?
                         then old(disk.files)[o.value.savedTo.value := SavedIndex(o.value.store)]
                         else old(disk.files)
    {
      var path := FaissPathOf(faissPath);
      var outcome := OpenStore(model, documents, embeddings, faissPath, disk.files, build);
      if outcome.Err? {
        return Err(outcome.error);
      }
      if outcome.value.savedTo.Some? {
        disk.files := disk.files[outcome.value.savedTo.value := SavedIndex(outcome.value.store)];
      }
      var retriever := new Retriever.FromStore(model, path, outcome.value.store);
      return Ok(retriever);
    }

    /** `query(query_text, top_k)`: nothing without a store or when the search
        raises, otherwise exactly what the search returns. */
    function Query(queryText: string, topK: int, search: SimilaritySearch): (r: seq<Document>)
      reads this
      ensures vectorstore.None? ==> r == []
      ensures r == [] || (vectorstore.Some? && search(vectorstore.value, queryText, topK) == Ok(r))
      ensures vectorstore.Some? && search(vectorstore.value, queryText, topK).Ok? ==>
        r == search(vectorstore.value, queryText, topK).value
    {
      if vectorstore.None? then []
      else
        match search(vectorstore.value, queryText, topK)
        case Ok(results) => results
        case Err(_) => []
    }

    /** `save_index(path)`: a no-op without a store. */
    method SaveIndex(path: string, disk: IndexDisk)
      modifies disk
      ensures vectorstore.None? ==> disk.files == old(disk.files)
      ensures vectorstore.Some? ==> disk.files == old(disk.files)[path := SavedIndex(vectorstore.value)]
    {
      if vectorstore.None? {
        return;
      }
      disk.files := disk.files[path := SavedIndex(vectorstore.value)];
    }

    /** `load_index(path)`: replaces the store, or raises and leaves it as it was. */
    method LoadIndex(path: string, disk: IndexDisk) returns (r: Result<(), RetrieverError>)
      modifies this
      ensures r.Ok? <==> LoadLocal(disk.files, path).Ok?
      ensures r.Ok? ==> vectorstore == Some(LoadLocal(disk.files, path).value)
      ensures r.Err? ==> r.error == LoadFailed(path) && vectorstore == old(vectorstore)
    {
      var loaded := LoadLocal(disk.files, path);
      if loaded.Err? {
        return Err(loaded.error);
      }
      vectorstore := Some(loaded.value);
      return Ok(());
    }
  }

  /** Saving a store and loading it back from the same path leaves the
      retriever with the store it had. */
  method SaveThenLoad(r: Retriever, path: string, disk: IndexDisk)
    requires r.vectorstore.Some?
    modifies r, disk
    ensures r.vectorstore == old(r.vectorstore)
    ensures disk.files == old(disk.files)[path := SavedIndex(old(r.vectorstore).value)]
  {
    r.SaveIndex(path, disk);
    var loaded := r.LoadIndex(path, disk);
    assert loaded.Ok?;
  }
}

=== FILE: roundtrip.dfy ===
/** The two ends of the chat-completions protocol put together: what the
    endpoint (backend/main.py) sends is what the frontend client
    (frontend/src/services/agent.py) reads back.

    - A streamed answer: the body is the concatenation of the event frames;
      the client splits it into lines and keeps the `data:` payloads up to
      `[DONE]`, which are exactly the serialised chunks, in order.
    - A non-streamed answer: the envelope's first choice carries the reply
      text, which the client's response parser finds.
    - A request: the payload the client posts passes the endpoint's
      validation exactly when its numeric fields are in range, and the
      messages arrive unchanged. */
module StreamRoundTrip {
  import opened Base
  import opened Records
  import opened Json
  import opened Agent
  import opened Server
  import opened Client

  // ---------------------------------------------------------------------------
  // Splitting a body into lines
  // ---------------------------------------------------------------------------

  /** The first line of `line + "\n" + rest` is `line` when `line` has no
      break of its own. */
  lemma {:induction false} LineEndBeforeNewline(line: string, rest: string)
    requires HasNoLineBreak(line)
    ensures LineEnd(line + "\n" + rest) == |line|
    decreases |line|
  {
    var s := line + "\n" + rest;
    if line == [] {
      assert s[0] == '\n';
    } else {
      assert s[0] == line[0];
      assert s[1..] == line[1..] + "\n" + rest;
      LineEndBeforeNewline(line[1..], rest);
    }
  }

  /** A line ended by `\n` splits off whole. */
  lemma SplitOffLine(line: string, rest: string)
    requires HasNoLineBreak(line)
    ensures SplitLines(line + "\n" + rest) == [line] + SplitLines(rest)
  {
    var s := line + "\n" + rest;
    LineEndBeforeNewline(line, rest);
    assert s[|line|] == '\n';
    assert s[..|line|] == line;
    assert s[|line| + 1..] == rest;
  }

  /** An event frame is a `data:` line and an empty line. */
  lemma SplitOffFrame(payload: string, rest: string)
    requires HasNoLineBreak(payload)
    ensures SplitLines(Frame(payload) + rest) == [DataPrefix + payload, ""] + SplitLines(rest)
  {
    var line := DataPrefix + payload;
    assert HasNoLineBreak(line) by {
      forall i | 0 <= i < |line| ensures !IsLineBreak(line[i]) {
        if i >= |DataPrefix| {
          assert line[i] == payload[i - |DataPrefix|];
        }
      }
    }
    assert Frame(payload) + rest == line + "\n" + ("" + "\n" + rest);
    SplitOffLine(line, "" + "\n" + rest);
    SplitOffLine("", rest);
  }

  // ---------------------------------------------------------------------------
  // Reading lines back
  // ---------------------------------------------------------------------------

  /** A payload the parser hands back untouched: not empty, not the
      terminator, no line break and no surrounding whitespace. */
  predicate Clean(payload: string) {
    && payload != "" && payload != DoneMarker
    && HasNoLineBreak(payload)
    && !IsSpace(payload[0]) && !IsSpace(payload[|payload| - 1])
  }

  /** Every serialised chunk is clean: it is printable and runs from `{`
      to `}`. */
  lemma ChunkIsClean(c: ChatChunk)
    ensures Clean(DumpsChunk(c))
  {
    BracedIsClean(DumpsChunk(c));
  }

  lemma BracedIsClean(p: string)
    requires Printable(p) && |p| >= 2 && p[0] == '{' && p[|p| - 1] == '}'
    ensures Clean(p)
  {
    PrintableHasNoLineBreak(p);
    assert p[0] != DoneMarker[0];
  }

  /** The `data:` line of a payload without surrounding whitespace stops
      the parser on `[DONE]` and yields the payload otherwise. */
  lemma DataLineStep(payload: string)
    requires payload != "" && !IsSpace(payload[0]) && !IsSpace(payload[|payload| - 1])
    ensures LineStep(DataPrefix + payload) == if payload == DoneMarker then Stop else Yield(payload)
  {
    var line := DataPrefix + payload;
    assert StartsWith(line, DataPrefix);
    assert line[|DataPrefix|..] == payload;
    StripUntrimmed(payload);
  }

  /** The steps of a frame's two lines and what follows them. */
  lemma FrameLinesSteps(line: string, tail: seq<string>)
    ensures Steps([line, ""] + tail) == [LineStep(line), Skip] + Steps(tail)
  {
    StepsAppend([line, ""], tail);
    StepsAt([line, ""]);
    assert Steps([line, ""]) == [LineStep(line), LineStep("")];
  }

  /** A step followed by a skip yields what the step yields, then what the
      rest yields, unless the step stops. */
  lemma YieldedThenSkip(step: Step, tail: seq<Step>)
    ensures Yielded([step, Skip] + tail) ==
      match step
      case Stop => []
      case Skip => Yielded(tail)
      case Yield(d) => [d] + Yielded(tail)
  {
    var steps := [step, Skip] + tail;
    assert steps[1..][1..] == tail;
  }

  /** The lines of a frame whose payload has no surrounding whitespace,
      followed by more lines: `[DONE]` ends the stream there, any other
      payload is read and reading goes on after the frame. */
  lemma FrameLinesStep(payload: string, tail: seq<string>)
    requires payload != "" && !IsSpace(payload[0]) && !IsSpace(payload[|payload| - 1])
    ensures StreamPayloads([DataPrefix + payload, ""] + tail) ==
      if payload == DoneMarker then [] else [payload] + StreamPayloads(tail)
  {
    var line := DataPrefix + payload;
    FrameLinesSteps(line, tail);
    DataLineStep(payload);
    YieldedThenSkip(LineStep(line), Steps(tail));
  }

  /** The same, on the text: a frame followed by anything. */
  lemma FrameStep(payload: string, rest: string)
    requires payload != "" && HasNoLineBreak(payload)
    requires !IsSpace(payload[0]) && !IsSpace(payload[|payload| - 1])
    ensures StreamPayloads(SplitLines(Frame(payload) + rest)) ==
      if payload == DoneMarker then [] else [payload] + StreamPayloads(SplitLines(rest))
  {
    SplitOffFrame(payload, rest);
    FrameLinesStep(payload, SplitLines(rest));
  }

  /** The terminator frame ends the stream, whatever follows it. */
  lemma DoneFrameStops(rest: string)
    ensures StreamPayloads(SplitLines(DoneFrame + rest)) == []
  {
    var d := DoneMarker;
    assert d[0] == '[' && d[|d| - 1] == ']' && HasNoLineBreak(d);
    assert Frame(d) == DoneFrame;
    FrameStep(d, rest);
  }

  /** The lines of the frames of the given payloads. */
  function FrameLines(payloads: seq<string>): (lines: seq<string>)
    ensures |lines| == 2 * |payloads|
    decreases |payloads|
  {
    if payloads == [] then [] else [DataPrefix + payloads[0], ""] + FrameLines(payloads[1..])
  }

  /** A body of frames splits into the frames' lines, then the lines of
      whatever follows. */
  lemma {:induction false} FramesSplit(frames: seq<string>, payloads: seq<string>, rest: string)
    requires |frames| == |payloads|
    requires forall i :: 0 <= i < |frames| ==> frames[i] == Frame(payloads[i]) && HasNoLineBreak(payloads[i])
    ensures SplitLines(Concat(frames) + rest) == FrameLines(payloads) + SplitLines(rest)
    decreases |frames|
  {
    if frames == [] {
      assert Concat(frames) + rest == rest;
    } else {
      var tail := Concat(frames[1..]) + rest;
      ConcatConsRest(frames, rest);
      SplitOffFrame(payloads[0], tail);
      FramesSplit(frames[1..], payloads[1..], rest);
      LinesConsRest([DataPrefix + payloads[0], ""], FrameLines(payloads[1..]), SplitLines(rest));
    }
  }

  lemma ConcatConsRest(parts: seq<string>, rest: string)
    requires parts != []
    ensures Concat(parts) + rest == parts[0] + (Concat(parts[1..]) + rest)
  {
  }

  lemma LinesConsRest(head: seq<string>, lines: seq<string>, rest: seq<string>)
    ensures head + (lines + rest) == (head + lines) + rest
  {
  }

  /** The steps the parser takes over the lines of frames of the given
      payloads: each payload is yielded, each empty line skipped. */
  function FrameLineSteps(payloads: seq<string>): (steps: seq<Step>)
    decreases |payloads|
  {
    if payloads == [] then [] else [Yield(payloads[0]), Skip] + FrameLineSteps(payloads[1..])
  }

  lemma {:induction false} StepsOfFrameLines(payloads: seq<string>)
    requires forall i :: 0 <= i < |payloads| ==> Clean(payloads[i])
    ensures Steps(FrameLines(payloads)) == FrameLineSteps(payloads)
    decreases |payloads|
  {
    if payloads != [] {
      var p := payloads[0];
      assert Clean(p);
      FrameLinesSteps(DataPrefix + p, FrameLines(payloads[1..]));
      DataLineStep(p);
      StepsOfFrameLines(payloads[1..]);
    }
  }

  lemma FrameLineStepsCons(payloads: seq<string>, tail: seq<Step>)
    requires payloads != []
    ensures FrameLineSteps(payloads) + tail
      == [Yield(payloads[0]), Skip] + (FrameLineSteps(payloads[1..]) + tail)
  {
  }

  lemma YieldedPayloadThenSkip(p: string, ps: seq<string>, tail: seq<Step>, rest: seq<Step>)
    requires Yielded(rest) == ps + Yielded(tail)
    ensures Yielded([Yield(p), Skip] + rest) == [p] + ps + Yielded(tail)
  {
    YieldedThenSkip(Yield(p), rest);
  }

  lemma {:induction false} YieldedFrameLineSteps(payloads: seq<string>, tail: seq<Step>)
    ensures Yielded(FrameLineSteps(payloads) + tail) == payloads + Yielded(tail)
    decreases |payloads|
  {
    if payloads == [] {
      assert FrameLineSteps(payloads) + tail == tail;
    } else {
      var p, ps := payloads[0], payloads[1..];
      YieldedFrameLineSteps(ps, tail);
      FrameLineStepsCons(payloads, tail);
      YieldedPayloadThenSkip(p, ps, tail, FrameLineSteps(ps) + tail);
      assert payloads == [p] + ps;
    }
  }

  /** The lines of frames of clean payloads yield those payloads, then what
      the following lines yield. */
  lemma FrameLinesYield(payloads: seq<string>, tail: seq<string>)
    requires forall i :: 0 <= i < |payloads| ==> Clean(payloads[i])
    ensures StreamPayloads(FrameLines(payloads) + tail) == payloads + StreamPayloads(tail)
  {
    StepsAppend(FrameLines(payloads), tail);
    StepsOfFrameLines(payloads);
    YieldedFrameLineSteps(payloads, Steps(tail));
  }

  /** Frames of clean payloads, followed by anything, yield those payloads
      followed by what the remainder yields. */
  lemma FramesYield(frames: seq<string>, payloads: seq<string>, rest: string)
    requires |frames| == |payloads|
    requires forall i :: 0 <= i < |frames| ==> frames[i] == Frame(payloads[i]) && Clean(payloads[i])
    ensures StreamPayloads(SplitLines(Concat(frames) + rest)) ==
      payloads + StreamPayloads(SplitLines(rest))
  {
    FramesSplit(frames, payloads, rest);
    FrameLinesYield(payloads, SplitLines(rest));
  }

  // ---------------------------------------------------------------------------
  // The streamed answer, end to end
  // ---------------------------------------------------------------------------

  /** The serialised chunks, in order. */
  function Serialised(chunks: seq<ChatChunk>): (r: seq<string>)
    ensures |r| == |chunks|
    ensures forall i :: 0 <= i < |chunks| ==> r[i] == DumpsChunk(chunks[i])
  {
    seq(|chunks|, i requires 0 <= i < |chunks| => DumpsChunk(chunks[i]))
  }

  /** The frames of the chunks carry the serialised chunks, all clean. */
  lemma ChunkFramesClean(chunks: seq<ChatChunk>)
    ensures var frames, payloads := ChunkFrames(chunks), Serialised(chunks);
      forall i :: 0 <= i < |frames| ==> frames[i] == Frame(payloads[i]) && Clean(payloads[i])
  {
    forall i | 0 <= i < |chunks| ensures Clean(DumpsChunk(chunks[i])) {
      ChunkIsClean(chunks[i]);
    }
  }

  /** Frames of clean payloads and the terminator, followed by anything,
      yield exactly those payloads. */
  lemma FramesThenDone(frames: seq<string>, payloads: seq<string>, trailer: string)
    requires |frames| == |payloads|
    requires forall i :: 0 <= i < |frames| ==> frames[i] == Frame(payloads[i]) && Clean(payloads[i])
    ensures StreamPayloads(SplitLines(Concat(frames + [DoneFrame]) + trailer)) == payloads
  {
    ConcatAppend(frames, [DoneFrame]);
    assert Concat([DoneFrame]) == DoneFrame + Concat([]);
    assert Concat(frames + [DoneFrame]) + trailer == Concat(frames) + (DoneFrame + trailer);
    FramesYield(frames, payloads, DoneFrame + trailer);
    DoneFrameStops(trailer);
  }

  /** Frames of clean payloads with nothing after them yield exactly those
      payloads. */
  lemma FramesCut(frames: seq<string>, payloads: seq<string>)
    requires |frames| == |payloads|
    requires forall i :: 0 <= i < |frames| ==> frames[i] == Frame(payloads[i]) && Clean(payloads[i])
    ensures StreamPayloads(SplitLines(Concat(frames) + "")) == payloads
  {
    FramesYield(frames, payloads, "");
    assert SplitLines("") == [];
    assert Steps([]) == [];
  }

  /** The client reads back every chunk the endpoint streamed, in order and
      unchanged, whether the stream completed with `[DONE]` or was cut off by
      the generator's error; after a `[DONE]` nothing more is read. */
  lemma StreamReachesClient(chunks: seq<ChatChunk>, raised: bool, trailer: string)
    ensures var body := SseStream(Streamed(chunks, raised));
      StreamPayloads(SplitLines(Concat(body.frames) + (if raised then "" else trailer)))
        == Serialised(chunks)
  {
    var body := SseStream(Streamed(chunks, raised));
    var frames := ChunkFrames(chunks);
    ChunkFramesClean(chunks);
    if raised {
      assert body.frames == frames;
      FramesCut(frames, Serialised(chunks));
    } else {
      assert body.frames == frames + [DoneFrame];
      FramesThenDone(frames, Serialised(chunks), trailer);
    }
  }

  /** The same, through `send_chat_history`: a streamed request answered
      with the endpoint's complete event stream gives the caller exactly the
      serialised chunks. */
  method StreamedExchange(
    service: AgentService, history: seq<RawMessage>, model: string, temperature: real,
    maxTokens: int, includeContext: bool, nLast: int, post: Post, chunks: seq<ChatChunk>)
    returns (r: ClientResult)
    requires var sent := post(service.apiUrl,
                              PayloadFor(history, model, temperature, maxTokens, includeContext, true, nLast),
                              service.timeout, true);
      && sent.Ok? && 200 <= sent.value.status < 300
      && sent.value.text == Concat(SseStream(Streamed(chunks, false)).frames)
    ensures r == Lines(Serialised(chunks))
  {
    r := SendChatHistory(service, history, model, temperature, maxTokens, includeContext, true, nLast, post);
    var text := Concat(SseStream(Streamed(chunks, false)).frames);
    StreamReachesClient(chunks, false, "");
    assert text + "" == text;
  }

  // ---------------------------------------------------------------------------
  // The non-streamed answer, end to end
  // ---------------------------------------------------------------------------

  /** The client's parser finds the reply text in the endpoint's envelope;
      an empty or absent reply shows as the fallback text. */
  lemma EnvelopeReachesClient(requestId: string, created: int, model: string, content: Option<string>)
    ensures ParseBody(CompletionJson(requestId, created, model, content))
      == Ok(if content.Some? && content.value != "" then JStr(content.value) else JStr(NoResponseField))
  {
    var v := CompletionJson(requestId, created, model, content);
    ParsesOpenAIShape(v.fields, map["role" := JStr("assistant"), "content" := ContentValue(content)],
                      ContentValue(content));
  }

  // ---------------------------------------------------------------------------
  // The request, end to end
  // ---------------------------------------------------------------------------

  /** The request body the endpoint decodes from the client's JSON payload:
      every field is present. */
  function RequestOf(p: Payload): (raw: RawRequest)
    ensures raw.model == Some(p.model) && raw.messages == Some(AsRawAll(p.messages))
    ensures raw.maxTokens == Some(p.maxTokens) && raw.temperature == Some(p.temperature)
    ensures raw.stream == Some(p.stream) && raw.includeContext == Some(p.includeContext)
  {
    RawRequest(Some(p.model), Some(AsRawAll(p.messages)), Some(p.maxTokens), Some(p.temperature),
               Some(p.stream), Some(p.includeContext))
  }

  lemma AsRawAllInjective(a: seq<ChatMessage>, b: seq<ChatMessage>)
    requires AsRawAll(a) == AsRawAll(b)
    ensures a == b
  {
    forall i | 0 <= i < |a| ensures a[i] == b[i] {
      assert AsRaw(a[i]) == AsRawAll(a)[i] == AsRawAll(b)[i] == AsRaw(b[i]);
    }
  }

  /** A client payload passes validation exactly when `max_tokens >= 1` and
      `0 <= temperature <= 1`; it then reaches the handler with its model,
      messages and flags unchanged. */
  lemma ClientPayloadAccepted(p: Payload)
    ensures ValidateRequest(RequestOf(p)).Some? <==> p.maxTokens >= 1 && 0.0 <= p.temperature <= 1.0
    ensures ValidateRequest(RequestOf(p)).Some? ==>
      ValidateRequest(RequestOf(p)).value
        == RequestBody(p.model, p.messages, p.maxTokens, p.temperature, p.stream, p.includeContext)
  {
    var raw := RequestOf(p);
    assert forall i :: 0 <= i < |p.messages| ==> Complete(raw.messages.value[i]);
    var r := ValidateRequest(raw);
    if r.Some? {
      AsRawAllInjective(r.value.messages, p.messages);
    }
  }
}

=== FILE: server.dfy ===
/** The chat-completions endpoint (backend/main.py): request validation, the
    agent dependency, server-sent-events framing of a streamed answer and the
    OpenAI-style envelope of a non-streamed one.

    HTTP plumbing is reduced to a response value; the six-character request
    id is cut from a `uuid4().hex` the caller supplies, and the envelope's
    timestamp is supplied too. */
module Server {
  import opened Base
  import opened Records
  import opened Json
  import opened Loader
  import opened Embedder
  import opened Retrieval
  import opened Agent

  // ---------------------------------------------------------------------------
  // RequestBody
  // ---------------------------------------------------------------------------

  /** A request body as decoded, before validation: any field may be absent. */
  datatype RawRequest = RawRequest(
    model: Option<string>, messages: Option<seq<RawMessage>>,
    maxTokens: Option<int>, temperature: Option<real>,
    stream: Option<bool>, includeContext: Option<bool>)

  /** A validated `RequestBody`. */
  datatype RequestBody = RequestBody(
    model: string, messages: seq<ChatMessage>, maxTokens: int, temperature: real,
    stream: bool, includeContext: bool)

  const DefaultMaxTokens := 512
  const DefaultTemperature: real := 0.1
  const RagSourceDir := "data/"

  predicate Complete(m: RawMessage) {
    m.role.Some? && m.content.Some?
  }

  /** The field constraints: `max_tokens >= 1`, `0.0 <= temperature <= 1.0`,
      `model` and `messages` required, every message with both fields. */
  predicate Acceptable(raw: RawRequest) {
    && raw.model.Some? && raw.messages.Some?
    && (forall i :: 0 <= i < |raw.messages.value| ==> Complete(raw.messages.value[i]))
    && raw.maxTokens.GetOr(DefaultMaxTokens) >= 1
    && 0.0 <= raw.temperature.GetOr(DefaultTemperature) <= 1.0
  }

  /** Validation of the body; `None` is the 422 answer, given before the
      agent dependency or the handler runs. Absent optional fields take
      their defaults. */
  function ValidateRequest(raw: RawRequest): (r: Option<RequestBody>)
    ensures r.Some? <==> Acceptable(raw)
    ensures r.Some? ==>
      && r.value.model == raw.model.value
      && AsRawAll(r.value.messages) == raw.messages.value
      && r.value.maxTokens == raw.maxTokens.GetOr(DefaultMaxTokens) >= 1
      && 0.0 <= r.value.temperature == raw.temperature.GetOr(DefaultTemperature) <= 1.0
      && r.value.stream == raw.stream.GetOr(false)
      && r.value.includeContext == raw.includeContext.GetOr(false)
  {
    if !Acceptable(raw) then None
    else
      var ms := raw.messages.value;
      var messages := seq(|ms|, i requires 0 <= i < |ms| && Complete(ms[i]) =>
        ChatMessage(ms[i].role.value, ms[i].content.value));
      assert AsRawAll(messages) == ms;
      Some(RequestBody(raw.model.value, messages, raw.maxTokens.GetOr(DefaultMaxTokens),
                       raw.temperature.GetOr(DefaultTemperature), raw.stream.GetOr(false),
                       raw.includeContext.GetOr(false)))
  }

  /** A message on either bound is rejected. */
  lemma BoundsEnforced(raw: RawRequest)
    requires raw.maxTokens == Some(0) || raw.temperature == Some(1.5) || raw.temperature == Some(-0.1)
    ensures ValidateRequest(raw).None?
  {
  }

  // ---------------------------------------------------------------------------
  // Server-sent events
  // ---------------------------------------------------------------------------

  function Frame(payload: string): string {
    "data: " + payload + "\n\n"
  }

  const DoneFrame := "data: [DONE]\n\n"

  /** No frame of a JSON object is the terminator. */
  lemma FrameNotDone(payload: string)
    requires payload != [] && payload[0] == '{'
    ensures Frame(payload) != DoneFrame
  {
    assert Frame(payload)[6] == payload[0];
    assert DoneFrame[6] == '[';
  }

  /** The serialised delta: `{}` or `{"content": ...}`. */
  function DeltaJson(content: Option<string>): (r: string)
    ensures Printable(r)
  {
    if content.None? then DumpsObject([]) else DumpsObject([("content", Quote(content.value))])
  }

  function FinishJson(finishReason: Option<string>): (r: string)
    ensures Printable(r)
  {
    if finishReason.None? then "null" else Quote(finishReason.value)
  }

  const ChunkObject := "chat.completion.chunk"


  /** The chunk's single choice: delta, index and finish reason. */
  function ChoiceJson(c: ChatChunk): (r: string)
    ensures Printable(r)
  {
    var delta := DeltaJson(c.content);
    var index := NatToString(c.index);
    var finish := FinishJson(c.finishReason);
    var members := [("delta", delta), ("index", index), ("finish_reason", finish)];
    assert PrintableValues(members) by {
      forall i | 0 <= i < 3 ensures Printable(members[i].1) {
        if i == 0 { assert members[i].1 == delta; }
        else if i == 1 { assert members[i].1 == index; }
        else { assert members[i].1 == finish; }
      }
    }
    DumpsObject(members)
  }

  /** `json.dumps(chunk)`: keys in insertion order, ", " and ": " as
      separators, non-ASCII escaped. The text is one line of printable ASCII
      that starts with `{` and ends with `}`. */
  function DumpsChunk(c: ChatChunk): (r: string)
    ensures Printable(r)
    ensures |r| >= 2 && r[0] == '{' && r[|r| - 1] == '}'
  {
    var id := Quote(c.id);
    var kind := QuotePlain(ChunkObject);
    var created := IntToString(c.created);
    var model := Quote(c.model);
    var choices := DumpsSingleton(ChoiceJson(c));
    assert Printable(id) && Printable(kind) && Printable(created) && Printable(model) && Printable(choices);
    ChunkObjectJson(id, kind, created, model, choices)
  }

  /** The chunk dictionary around its serialised fields. */
  function ChunkObjectJson(id: string, kind: string, created: string, model: string, choices: string)
    : (r: string)
    requires Printable(id) && Printable(kind) && Printable(created) && Printable(model) && Printable(choices)
    ensures Printable(r)
    ensures |r| >= 2 && r[0] == '{' && r[|r| - 1] == '}'
  {
    var members := [("id", id), ("object", kind), ("created", created), ("model", model), ("choices", choices)];
    assert PrintableValues(members) by {
      forall i | 0 <= i < 5 ensures Printable(members[i].1) {
        if i == 0 { assert members[i].1 == id; }
        else if i == 1 { assert members[i].1 == kind; }
        else if i == 2 { assert members[i].1 == created; }
        else if i == 3 { assert members[i].1 == model; }
        else { assert members[i].1 == choices; }
      }
    }
    DumpsObject(members)
  }

  /** The body of a `text/event-stream` response: the frames sent, and
      whether the generator raised after them (the connection is then cut). */
  datatype SseBody = SseBody(frames: seq<string>, aborted: bool)

  /** `stream_chat_response`: one frame per chunk in order, then one
      `[DONE]` frame. A `str` from `run` is not async-iterable, so the stream
      aborts before its first frame; a generator that raises aborts the
      stream after the frames already sent, with no `[DONE]`. */
  function SseStream(out: RunOutput): (body: SseBody)
    ensures out.Reply? ==> body == SseBody([], true)
    ensures out.Streamed? ==>
      && body.aborted == out.raised
      && |body.frames| == |out.chunks| + (if out.raised then 0 else 1)
      && (forall i :: 0 <= i < |out.chunks| ==> body.frames[i] == Frame(DumpsChunk(out.chunks[i])))
    ensures forall i :: 0 <= i < |body.frames| && body.frames[i] == DoneFrame ==>
      i == |body.frames| - 1 && !body.aborted
    ensures !body.aborted ==> |body.frames| >= 1 && body.frames[|body.frames| - 1] == DoneFrame
  {
    match out
    case Reply(_) => SseBody([], true)
    case Streamed(chunks, raised) =>
      var frames := ChunkFrames(chunks);
      var all := frames + (if raised then [] else [DoneFrame]);
      assert forall i :: 0 <= i < |frames| ==> all[i] == frames[i];
      SseBody(all, raised)
  }

  lemma ChunkFramesNotDone(chunks: seq<ChatChunk>)
    ensures forall i :: 0 <= i < |chunks| ==> Frame(DumpsChunk(chunks[i])) != DoneFrame
  {
    forall i | 0 <= i < |chunks| ensures Frame(DumpsChunk(chunks[i])) != DoneFrame {
      FrameNotDone(DumpsChunk(chunks[i]));
    }
  }

  /** The frames of the chunks, none of which is the terminator. */
  function ChunkFrames(chunks: seq<ChatChunk>): (frames: seq<string>)
    ensures |frames| == |chunks|
    ensures forall i :: 0 <= i < |chunks| ==> frames[i] == Frame(DumpsChunk(chunks[i]))
    ensures forall i :: 0 <= i < |frames| ==> frames[i] != DoneFrame
  {
    ChunkFramesNotDone(chunks);
    seq(|chunks|, i requires 0 <= i < |chunks| => Frame(DumpsChunk(chunks[i])))
  }

  // ---------------------------------------------------------------------------
  // The non-streaming envelope
  // ---------------------------------------------------------------------------

  /** `uuid4().hex[:6]` */
  function RequestId(hex: string): (id: string)
    ensures |id| <= 6 && |id| <= |hex| && id == hex[..|id|]
    ensures |hex| >= 6 ==> |id| == 6
  {
    if |hex| <= 6 then hex else hex[..6]
  }

  /** The value `"content": output` serialises to: the text, or `null` when
      the backend's message had no content. */
  function ContentValue(content: Option<string>): (v: JValue)
    ensures content.Some? ==> v == JStr(content.value)
    ensures content.None? ==> v == JNull
  {
    if content.Some? then JStr(content.value) else JNull
  }

  /** The response dictionary of a non-streamed completion. */
  function CompletionJson(requestId: string, created: int, model: string, content: Option<string>): (v: JValue)
    ensures v.JObj? && v.fields.Keys == {"id", "object", "created", "model", "choices", "usage"}
    ensures v.fields["id"] == JStr("chatcmpl-" + requestId)
    ensures v.fields["object"] == JStr("chat.completion")
    ensures v.fields["usage"] == JNull
    ensures v.fields["choices"].JArr? && |v.fields["choices"].items| == 1
    ensures var choice := v.fields["choices"].items[0];
      && choice.JObj?
      && choice.fields == map[
           "index" := JInt(0),
           "message" := JObj(map["role" := JStr("assistant"), "content" := ContentValue(content)]),
           "finish_reason" := JStr("stop")]
  {
    JObj(map[
      "id" := JStr("chatcmpl-" + requestId),
      "object" := JStr("chat.completion"),
      "created" := JInt(created),
      "model" := JStr(model),
      "choices" := JArr([JObj(map[
        "index" := JInt(0),
        "message" := JObj(map["role" := JStr("assistant"), "content" := ContentValue(content)]),
        "finish_reason" := JStr("stop")])]),
      "usage" := JNull])
  }

  // ---------------------------------------------------------------------------
  // The endpoint
  // ---------------------------------------------------------------------------

  datatype HttpResponse =
    | Unprocessable                              // 422: the body failed validation
    | ErrorResponse(status: int, detail: string) // HTTPException, or an unhandled error (500)
    | JsonResponse(json: JValue)
    | EventStream(events: SseBody)

  const EmptyMessagesDetail := "Messages list cannot be empty."
  const CompletionFailedDetail := "Chat completion failed."
  /** What the server answers when the agent dependency raises. */
  const InternalErrorDetail := "Internal Server Error"

  /** `get_agent(request)`: an agent configured from the request, with RAG
      over `data/`. */
  method GetAgent(
    request: RequestBody, data: Directory, split: Splitter, embed: EmbeddingBackend,
    build: FaissBuild, disk: IndexDisk)
    returns (r: Result<PersonalKnowledgeAgent, AgentInitError>)
    modifies disk
    ensures disk.files == old(disk.files)
    ensures r.Ok? ==>
      && fresh(r.value)
      && r.value.modelName == request.model && r.value.temperature == request.temperature
      && r.value.maxTokens == request.maxTokens && r.value.stream == request.stream
      && r.value.ragEnabled && r.value.retriever != null
    ensures data.Missing? ==> r == Err(RagLoadFailed(NotADirectory(RagSourceDir)))
  {
    r := PersonalKnowledgeAgent.Create(
      request.model, request.temperature, request.maxTokens, request.stream,
      Some(RagSourceDir), data, split, embed, build, disk);
  }

  /** The response the handler gives for a given run output. */
  function Respond(request: RequestBody, requestId: string, created: int, out: RunOutput): (resp: HttpResponse)
    ensures request.stream ==> resp == EventStream(SseStream(out))
    ensures !request.stream && out.Reply? ==>
      resp == JsonResponse(CompletionJson(requestId, created, request.model, out.text))
    ensures !request.stream && out.Streamed? ==> resp == ErrorResponse(500, CompletionFailedDetail)
  {
    if request.stream then EventStream(SseStream(out))
    else if out.Reply? then JsonResponse(CompletionJson(requestId, created, request.model, out.text))
    else ErrorResponse(500, CompletionFailedDetail)
  }

  /** `chat_completions(request, agent)`: an empty message list is a 400;
      a streamed request gets the event stream of the agent's run; a
      non-streamed one gets the envelope around the agent's text. A
      generator where text was expected cannot be serialised, which the
      handler turns into a 500. */
  method Handle(
    request: RequestBody, agent: PersonalKnowledgeAgent, uuidHex: string, created: int,
    search: SimilaritySearch, backend: ChatBackend, stamp: nat -> Stamp)
    returns (resp: HttpResponse)
    ensures request.messages == [] ==> resp == ErrorResponse(400, EmptyMessagesDetail)
    ensures request.messages != [] ==>
      resp == Respond(request, RequestId(uuidHex), created,
                      Answer(agent.CallFor(AsRawAll(request.messages), request.includeContext, None, search),
                             backend, stamp))
  {
    if request.messages == [] {
      return ErrorResponse(400, EmptyMessagesDetail);
    }
    var requestId := RequestId(uuidHex);
    var dicts := AsRawAll(request.messages);
    var out := agent.Run(dicts, request.includeContext, None, search, backend, stamp);
    if request.stream {
      return EventStream(SseStream(out));
    }
    if out.Streamed? {
      return ErrorResponse(500, CompletionFailedDetail);
    }
    return JsonResponse(CompletionJson(requestId, created, request.model, out.text));
  }

  /** POST /v1/chat/completions end to end: validation (422), the agent
      dependency (500 when it raises), then the handler. The agent always
      streams exactly when the request asks to, so the handler's own 500 is
      never given. */
  method ChatCompletions(
    raw: RawRequest, data: Directory, split: Splitter, embed: EmbeddingBackend,
    build: FaissBuild, disk: IndexDisk,
    uuidHex: string, created: int, search: SimilaritySearch, backend: ChatBackend, stamp: nat -> Stamp)
    returns (resp: HttpResponse)
    modifies disk
    ensures disk.files == old(disk.files)
    ensures ValidateRequest(raw).None? <==> resp == Unprocessable
    ensures resp != ErrorResponse(500, CompletionFailedDetail)
    ensures resp == ErrorResponse(400, EmptyMessagesDetail) ==> raw.messages == Some([])
    ensures ValidateRequest(raw).Some? && data.Missing? ==> resp == ErrorResponse(500, InternalErrorDetail)
    ensures resp.EventStream? ==> raw.stream == Some(true)
    ensures resp.JsonResponse? ==> raw.stream != Some(true)
  {
    var request := ValidateRequest(raw);
    if request.None? {
      return Unprocessable;
    }
    var agent := GetAgent(request.value, data, split, embed, build, disk);
    if agent.Err? {
      return ErrorResponse(500, InternalErrorDetail);
    }
    resp := Handle(request.value, agent.value, uuidHex, created, search, backend, stamp);
    if request.value.messages == [] {
      assert AsRawAll(request.value.messages) == [];
    }
  }
}
